=== FILE: README.md ===
# cli-styler, modelled in Dafny

cli-styler styles terminal text with ANSI SGR escape sequences. This
project models three parts of it as pure functions, with proofs about them:

- **Style values and the compiler** (`core/src/style.rs`):
  - colours, channel types and modifiers;
  - the builder setters;
  - `is_empty`, `collect`, `compile`, `csi`, `wrap` and `Stylable::style`.
- **The grammars** (`src/parser.rs`):
  - colour tokens: one-letter aliases, decimal palette indices, hex with the mode's `#` marker, and lenient `r,g,b` triples;
  - modifier strings;
  - whole style specs of `flag value` pairs;
  - the five-state markup tokenizer.
- **The markup tree** (`core/src/markup.rs`): the stack-based tree builder and the renderer.

Files, one module each:

| file | module | contents |
|---|---|---|
| `wrappers.dfy` | `Wrappers` | `Option` and `Result` |
| `text.dfy` | `Text` | ASCII character classes; `split`, `join`, `split_whitespace`, `trim`, `to_lowercase` |
| `numbers.dfy` | `Numbers` | Rust's `u8` parsing in radix 10 and 16 (a leading `+` is accepted); decimal and hex printing |
| `styles.dfy` | `Styles` | the style vocabulary, the setters and the compiler |
| `sgr.dfy` | `Sgr` | a decoder for the escape sequences the compiler writes; it is the partner the compiler is proved against |
| `parser.dfy` | `Parser` | `parse_color`, `parse_modfiers` and `parse_style`; `ParsingError` mirrors `src/error.rs` |
| `spec_printer.dfy` | `SpecPrinter` | a printer from styles to specs, and the round trip through `parse_style` |
| `tokenizer.dfy` | `Tokenizer` | `tokenize` as a step function folded over the input |
| `token_printer.dfy` | `TokenPrinter` | a printer from token lists to markup, and the round trip through `tokenize` |
| `markup.dfy` | `MarkupTree` | `markup_parser` as a fold over tokens; `render` |
| `doc_examples.dfy` | `DocExamples` | the unit tests of `src/lib.rs` and the `WARNING` and `ERROR` doc examples, stated over the model |

The main results:

- **The compiler can be undone.** `collect` of any style whose colours sit on their own side's channel decodes back to that style. The one exception: an indexed or RGB colour does not keep its bright flag in the escape form.
- **The grammar has an inverse.** Every style it can produce has a spec that parses back to it. Its results are exactly the styles without `Reset` whose colours sit on their own side's channel.
- **The tokenizer has an inverse.** Printed token lists tokenize back to themselves.
- **`markup_parser` fails exactly on unbalanced tags.** An `End` with nothing open is `UnexpectedClosingTag`. Open tags left at the end are `UnclosedTags`.
- **The tree keeps the token stream.** Flattening it gives back the stream in pre-order, so no text is lost or reordered.
- **`render` of a tree equals a reference renderer over the flat stream.** That renderer keeps a stack of styles.

Three behaviours of the code are easy to misread:

- **Rendering does not nest styles.** `render` applies a node's compiled style only to that node's own text children (`core/src/markup.rs:47-51`). A nested node's text is rendered with the nested node's style alone. The outer style is not applied around it (`MarkupTree.RenderDoesNotNest`).
- **A tag holds a whole style spec.** `<m b>` is a bold tag; `<b>` alone is `MissingParamVal`.
- **A two-digit hex colour is accepted.** The hex expansion repeats it three times: `#12` is RGB(0x12, 0x12, 0x12) (`Parser.HexTwoDigits`).

## Model

| member | source | states |
|---|---|---|
| Styles.GetCsi | core/src/style.rs:88-93 | the extended-colour introducer is 38 exactly for the two foreground channel types and 48 exactly for the two background ones |
| Styles.ToNum | core/src/style.rs:157-169 | the named hues, and only they, have base codes in 30..37; indexed and RGB colours give 0 |
| Styles.ColorFromChar | core/src/style.rs:142-154 | exactly the eight letters `rgbcmykw` name a colour, and what they name is always a named hue |
| Styles.NamedCodeRange | core/src/style.rs:172-178 | a named hue's code is 30..37, 40..47, 90..97 or 100..107 by channel type, so the source's `u8` addition never overflows |
| Styles.ModifierCodeInjective | core/src/style.rs:187-199 | distinct modifiers have distinct SGR codes |
| Styles.ModifierFromChar | core/src/style.rs:205-219 | exactly the ten letters `bdiukvhslo` name a modifier, and none of them names `Reset` |
| Styles.SetFg | core/src/style.rs:266-272 | sets the foreground colour, keeps the channel type already there (plain `Fg` when there was none), and leaves background and modifiers alone |
| Styles.SetBg | core/src/style.rs:275-281 | the same for the background channel, with plain `Bg` as the default type |
| Styles.FgIndex | core/src/style.rs:302-305 | sets an indexed foreground colour and resets the type to plain `Fg`, whatever it was, leaving the rest unchanged |
| Styles.BgIndex | core/src/style.rs:308-311 | the same on the background, resetting to plain `Bg` |
| Styles.FgBrighten | core/src/style.rs:314-320 | the foreground type becomes `FgBright`, the colour is kept, and it is `White` when there was none |
| Styles.BgBrighten | core/src/style.rs:323-329 | the same on the background with `BgBright` |
| Styles.FgRgb | core/src/style.rs:283-291 | sets an RGB foreground, keeps the channel type already there (plain `Fg` when there was none), and leaves background and modifiers alone |
| Styles.BgRgb | core/src/style.rs:292-300 | the same on the background, with plain `Bg` as the default type |
| Styles.SetterAlgebra | core/src/style.rs:266-329 | setting a colour twice keeps the second; `fg_rgb`/`bg_rgb` are `fg`/`bg` with an RGB colour; brightening is idempotent |
| Styles.BrightenIsSticky | core/src/style.rs:266-311 | `fg`/`bg` after brightening keep the bright type, while `fg_index`/`bg_index` drop it |
| Styles.InsertModifier | core/src/style.rs:409-412 | the modifier is appended after all earlier ones, and the colours are untouched |
| Styles.Format | core/src/style.rs:170-177 | a colour's parameters are non-empty and only digits and `;`; a named hue is the single code base plus channel offset; an indexed colour is `C;5;i` and an RGB colour `C;2;r;g;b`, with `C` 38 or 48 by channel |
| Styles.EmptyMeansNoEffect | core/src/style.rs:391-406 | `is_empty` holds exactly when styling leaves every text unchanged |
| Styles.Collect | core/src/style.rs:415-433 | the parameter list is empty exactly for an empty style, holds only digits and `;`, and equals the codes of foreground, background and modifiers, in that order, joined by `;` |
| Sgr.CollectDecodes | core/src/style.rs:415-433 | decoding the parameter list of any style whose colours sit on their own side's channel gives the style back, up to the bright flag of indexed and RGB colours |
| Sgr.DecodePresentChannel | core/src/style.rs:172-178 | the codes written for any colour on a channel decode back to that colour and channel type (the plain type for indexed and RGB colours), leaving whatever followed them |
| Styles.Compile | core/src/style.rs:382-384 | the compiled parameter list is empty exactly when the style is empty |
| Styles.CompileIsCache | core/src/style.rs:47-56 | styling through the compiled style gives the same text as styling through the style |
| Styles.Csi | core/src/style.rs:24-26 | the sequence is ESC, `[`, the parameters, `m`, in that order and nothing else |
| Styles.Wrap | core/src/style.rs:33-39 | empty text or empty parameters leave the text unchanged; otherwise the result is the CSI sequence, the text, then the reset sequence |
| Sgr.UnwrapWrap | core/src/style.rs:33-39 | a wrapped non-empty text splits back into its parameter list and its text |
| Sgr.ApplyDecodes | core/src/style.rs:47-51 | for a non-empty style whose colours sit on their own side's channel, styling a non-empty text with it can be undone: the text comes back, and so does the style up to the bright flag of indexed and RGB colours |
| Styles.Apply | core/src/style.rs:47-51 | styling returns the text unchanged exactly when the style is empty or the text is empty |
| Styles.ApplyCompiled | core/src/style.rs:53-57 | the same for a compiled style with an empty parameter list, and the result is never shorter than the text |
| Styles.EmptyStyleIsIdentity | core/src/style.rs:391-406 | the new, empty style leaves any text unchanged, including text that is already styled |
| Numbers.ParseU8 | src/parser.rs:212-215 | a `u8` is read only from an optional `+` followed by at least one digit of the radix, with nothing else; a string of digits is accepted exactly when the number it denotes is below 256, and then reads as that number |
| Numbers.DecimalParses | src/parser.rs:212-215 | the decimal rendering of any `u8` parses back to it |
| Numbers.Hex2Parses | src/parser.rs:234-239 | the two-digit hex rendering of any `u8` parses back to it in radix 16 |
| Numbers.PlusSign | src/parser.rs:212-215 | a leading `+` does not change what a number parses to |
| Numbers.Overflow | src/parser.rs:212-215 | the decimal of any number of 256 or more is refused |
| Numbers.LeadingZero | src/parser.rs:212-215 | a leading zero before digits does not change what they parse to, so `007` reads as 7 |
| Parser.ParseColor | src/parser.rs:194-255 | every error is a colour error; a named hue comes only from a one-character token; an index is the decimal value of the lower-cased token |
| Parser.ParseColorIgnoresCase | src/parser.rs:195 | a colour token means the same as its lower-cased form |
| Parser.ParseColorIndex | src/parser.rs:212-215 | any token that parses as a decimal `u8` is that palette index |
| Parser.IndexOverflow | src/parser.rs:212-254 | the decimal of any number of 256 or more is not an index, nor anything else, and gives `UnknownClrFmt` of itself in both modes |
| Parser.LenientOverflow | src/parser.rs:244-247 | a comma-form component whose decimal is 256 or more reads as 0 |
| Parser.HexBody | src/parser.rs:217-223 | the hex marker is found exactly when the token starts with `#` in markup or ends with it on the command line, and the body is the token without it |
| Parser.ParseHex | src/parser.rs:224-241 | a hex body gives an RGB colour or one of the two hex errors |
| Parser.ExpandHex | src/parser.rs:224-232 | hex bodies of exactly 2, 3 or 6 digits are accepted and become six digits; any other length is `InvalidHexClr` with that length |
| Parser.ByHex | src/parser.rs:217-242 | a token of two or more characters that carries the mode's marker is read as hex: it can never be a decimal |
| Parser.HexThreeDigits | src/parser.rs:226-229 | `#abc` denotes the same colour as `#aabbcc`, for any three characters and in both modes |
| Parser.HexTwoDigits | src/parser.rs:225 | `#ab` denotes the same colour as `#ababab` |
| Parser.CommaTriple | src/parser.rs:244-252 | in either mode, a token with exactly two commas that does not carry the mode's hex marker (a leading `#` in markup, a trailing one on the command line) is an RGB colour whose unreadable components are 0 |
| Parser.UnknownAlias | src/parser.rs:198-208 | a one-character token that is neither a digit nor a colour letter is `InvalidClrSpec` with the lower-cased character |
| Parser.BadHexLength | src/parser.rs:224-232 | a marked token whose body is not 2, 3 or 6 characters long is `InvalidHexClr` with that body and its length |
| Parser.HexComponentOrder | src/parser.rs:234-241 | the expanded digits are read red, green, blue in that order; the first pair that is not a hex `u8` is `InvalidHexComp` naming that component and carrying the expansion; otherwise the colour is RGB of the three |
| Parser.UnknownFormat | src/parser.rs:244-254 | a token that is not one character, not a decimal `u8`, unmarked and not three comma-separated parts is `UnknownClrFmt` with the lower-cased token |
| Parser.ParseModifiers | src/parser.rs:258-266 | succeeds exactly when every character is a modifier alias; the result has one modifier per character, in order; otherwise the error names the first unknown character |
| Parser.ParamOf | src/parser.rs:176-185 | exactly the five flags `f`, `b`, `fb`, `bb` and `m` are known |
| Parser.ApplyPair | src/parser.rs:176-185 | an unknown flag is `InvalidParamName`; a successful pair keeps every colour on its own side's channel and adds no `Reset` |
| Parser.ColorPair | src/parser.rs:176-185 | a colour flag whose value reads as a colour sets that colour through the flag's setter, on any style |
| Parser.ModifierPair | src/parser.rs:176-185 | the flag `m` with a word of modifier aliases appends those modifiers, in order, to any style |
| Parser.ParseStyle | src/parser.rs:158-191 | more than six words is `TooManyArgs` with the count, checked first; an odd count is `MissingParamVal`; no words is the empty style; every result is a style the setters can build |
| Parser.BlankSpec | src/parser.rs:158-172 | a spec of blanks only is the empty style |
| Parser.FirstErrorWins | src/parser.rs:174-188 | once a pair fails, the pairs after it are never looked at |
| Parser.PairsCompose | src/parser.rs:174-188 | successful pairs compose: folding `a + b` is folding `b` from where `a` left the style |
| SpecPrinter.ColorSpecParses | src/parser.rs:194-255 | every colour has a token that reads back as that colour, in both modes |
| SpecPrinter.ModifierSpecParses | src/parser.rs:258-266 | every modifier list without `Reset` has a word that reads back as that list |
| SpecPrinter.PrintSpecParses | src/parser.rs:158-191 | every style the setters can build has a spec that parses back to it |
| SpecPrinter.GrammarImage | src/parser.rs:158-191 | a style is a result of the grammar exactly when it has no `Reset` and each colour sits on its own side's channel |
| Tokenizer.Step | src/parser.rs:76-151 | one character keeps the machine's invariant (text tokens are non-empty and never adjacent) and only appends tokens |
| Tokenizer.Finish | src/parser.rs:76-137 | the end of the input is accepted exactly in the text and backslash states |
| Tokenizer.Scan | src/parser.rs:73-152 | running the machine over any input keeps its invariant: text tokens are non-empty and never adjacent, and only the text states hold pending text |
| Tokenizer.Tokenize | src/parser.rs:63-155 | text tokens are never empty and never follow each other |
| Tokenizer.PlainText | src/parser.rs:130-150 | text without `<` and `\` is one text token, or none when empty |
| Tokenizer.Escape | src/parser.rs:108-119 | `\<` is a literal `<`; a backslash before anything else is kept with that character |
| Tokenizer.TrailingBackslash | src/parser.rs:108-110 | after any input that leaves the machine reading text, a final backslash joins the pending text run, which is flushed as the last token |
| Tokenizer.PlainTrailingBackslash | src/parser.rs:108-110 | plain text followed by a backslash is one text token that ends in the backslash |
| Tokenizer.DoubleBackslash | src/parser.rs:108-119 | after any input that leaves the machine reading text, `\\<` keeps both backslashes as pending text and still opens a tag, so at the end of the input it is `Eof(">")` |
| Tokenizer.EmptyTag | src/parser.rs:77-83 | `<>` flushes the pending text run and emits `Empty` |
| Tokenizer.EndTag | src/parser.rs:121-126 | `</>` flushes the pending text run and emits `End` |
| Tokenizer.StyledTag | src/parser.rs:87-92 | a closed tag emits the style its body parses to, or stops with that body's grammar error |
| Tokenizer.OpenAtEnd | src/parser.rs:77-78 | a `<` at the end of the input is `Eof(">")` |
| Tokenizer.CloseAtEnd | src/parser.rs:121-122 | `</` at the end of the input is `Eof("</")` |
| Tokenizer.NamedClose | src/parser.rs:121-127 | `</` followed by anything but `>` is a named closing tag, which is unsupported |
| Tokenizer.TagAtEnd | src/parser.rs:87-88 | a tag left open at the end names its body in the `Eof` error |
| Tokenizer.BadTagSpec | src/parser.rs:89-90 | a grammar error in a tag body stops the tokenizer, whatever follows |
| Tokenizer.BadTagChar | src/parser.rs:93-104 | a character outside the tag alphabet is `InvalidTagChar`, whatever follows |
| TokenPrinter.TagSpecParses | src/parser.rs:87-104 | the printed body of a tag is within the tag alphabet and parses back to its style |
| TokenPrinter.PrintTokensRoundTrip | src/parser.rs:63-155 | tokenizing printed tokens gives the same tokens back |
| MarkupTree.Feed | core/src/markup.rs:66-92 | a token fails exactly when it is `End` with no open tag, with `UnexpectedClosingTag`; tags push one frame and `End` pops one |
| MarkupTree.Build | core/src/markup.rs:94-101 | the root's style is the compiled empty style, whose parameter list is empty |
| MarkupTree.MarkupParse | core/src/markup.rs:60-102 | tokenizer errors pass through unchanged; otherwise the only errors are `UnexpectedClosingTag` and `UnclosedTags` |
| MarkupTree.FeedAllBalance | core/src/markup.rs:66-92 | the fold succeeds exactly when no prefix closes more than is open, and leaves the stack deeper by the net count of opening tags |
| MarkupTree.BuildBalanced | core/src/markup.rs:80-96 | the tree is built exactly for balanced token lists; an early `End` is `UnexpectedClosingTag`, and open tags at the end are `UnclosedTags` |
| MarkupTree.BuildFlattens | core/src/markup.rs:66-101 | the built tree, flattened in pre-order, is the token list itself: each tag becomes the open of a node, `End` closes it, and the texts stay in order |
| MarkupTree.BuildLeaves | core/src/markup.rs:66-101 | the tree's text leaves, in order, are exactly the text tokens |
| MarkupTree.Render | core/src/markup.rs:44-57 | no text is dropped: the output is at least as long as all the tree's texts, and a tree without text renders as nothing |
| MarkupTree.RenderIsStream | core/src/markup.rs:44-57 | rendering a tree equals rendering its flat stream with a stack of styles, where each text takes only the innermost style |
| MarkupTree.ParseRender | core/src/markup.rs:44-57 | the render of parsed markup is the stack renderer over the token list |
| MarkupTree.RenderDoesNotNest | core/src/markup.rs:47-51 | a node's style is applied to its own text children only; a nested node is rendered on its own |
| MarkupTree.EmptyTagsRenderPlain | core/src/markup.rs:75-78 | markup whose tags are all `<>` renders as its texts concatenated, without escape sequences |
| DocExamples.RedForeground | src/lib.rs:41-44 | the spec `f r` is the style with a red foreground |
| DocExamples.RedBackground | src/lib.rs:58-61 | the spec `b r` is the style with a red background |
| DocExamples.BrightRedForeground | src/lib.rs:46-54 | the spec `fb r` is `fg(Red)` then `fg_brighten()`, and also `fg_brighten()` then `fg(Red)` |
| DocExamples.BrightRedBackground | src/lib.rs:63-71 | the spec `bb r` is `bg(Red)` then `bg_brighten()`, and also the other order |
| DocExamples.IndexedForeground | src/lib.rs:76-79 | the spec `f 99` is `fg_index(99)` |
| DocExamples.IndexedBackground | src/lib.rs:81-84 | the spec `b 99` is `bg_index(99)` |
| DocExamples.ModifierWord | src/lib.rs:161-169 | the spec `m ilobu` is italic, double underline, overline, bold and underline, in that order |
| DocExamples.BoldWord | src/lib.rs:156-159 | the spec `m b` is `bold()`, the one modifier Bold |
| DocExamples.WarningCodes | core/src/style.rs:445-458 | bright red on bright yellow compiles to the parameter list `91;103` |
| DocExamples.ErrorStyle | core/src/style.rs:454-456 | the spec `f #fff b 255,,`, read in markup mode, is white on red, both as RGB colours |
| DocExamples.ErrorCodes | core/src/style.rs:454-459 | white on red as RGB colours compiles to the parameter list `38;2;255;255;255;48;2;255;0;0` |

## Left out

- Non-ASCII text. Rust's `to_lowercase` and `is_whitespace` are Unicode-aware, and `parse_color` compares byte lengths. The model's character classes are the ASCII ones, so the model agrees with the source on ASCII input only.
- `src/cli.rs` and `src/bin/main.rs`: command-line argument handling and printing, which are I/O.
- `Part` and `BatchStyler` (`core/src/style.rs:480-543`). They are not part of this model.
- `Style::new_from_cli_spec` and `CompiledStyle::new_from_cli_spec`. They call `parse_style` in markup mode and panic on its error. The model states `parse_style` (`Parser.ParseStyle`), and the examples are stated on it.
- `Markup::new` and `Markup::new_cli` only choose the mode. `MarkupTree.MarkupParse` takes the mode as a parameter.
- The `Stylize` trait. Its `apply` only calls `Stylable::style`.
- The serde derivations. The `Display` texts of the errors in `src/error.rs` are also out; errors are compared as values.
- The modifier shortcuts (`bold()` … `overline()`, `reset()`). Each is `insert_modifier` with a fixed modifier, which `Styles.InsertModifier` states.
- `is_color`, `is_rgb` and `is_indexed`. The model uses `IsNamed` and the datatype's discriminators instead.
- The `todo!()` panic on a named closing tag (`src/parser.rs:127`). It is modelled as the failure `Unsupported(c)`, kept apart from `ParsingError`.
- TokenPrinter.PrintTokensRoundTrip: holds only for token lists whose texts hold no backslash. Only some backslashes are lost: one directly before a `<`, and one that ends a text run followed by a tag. The tokenizer reads `\<` as an escaped `<`, and a backslash always takes the next character with it. The model excludes backslashes altogether rather than say exactly which texts survive.
- Sgr.CollectDecodes: gives the style back only up to the bright flag of indexed and RGB colours. Their escape form is the same on the plain and the bright channel, so the flag cannot be recovered.
- Sgr.ApplyDecodes: the same limit. It is stated for styles whose colours sit on their own side's channel, and what comes back is that style with the bright flag of indexed and RGB colours dropped.
- DocExamples: each example is stated for any spec whose blank-separated words are the example's words. That covers the literal spec. The hex, comma-triple and multi-pair examples of `src/lib.rs:88-151` and `core/src/style.rs:235-238` are not restated as instances. The general lemmas `Parser.HexThreeDigits`, `Parser.CommaTriple`, `SpecPrinter.RgbSpecParses` and `Parser.PairsCompose` cover them. The `ERROR` example of `core/src/style.rs:454-459` is restated as `DocExamples.ErrorStyle` and `DocExamples.ErrorCodes`.

=== FILE: doc_examples.dfy ===
/** The worked examples of the library's documentation and unit tests
    (`src/lib.rs`, `core/src/style.rs`), stated over the model. */
module DocExamples {
  import opened Wrappers
  import opened Text
  import opened Numbers
  import opened Styles
  import opened Parser
  import opened SpecPrinter

  /** A spec of two words is the one pair they make. */
  lemma TwoWords(spec: string, flag: string, value: string, mode: ParsingMode)
    requires SplitWhitespace(spec) == [flag, value]
    ensures ParseStyle(spec, mode) == ApplyPair(NewStyle, flag, value, mode)
  {
    ParseStyleFolds(spec, mode);
    FoldOnePair(NewStyle, flag, value, mode);
  }

  lemma RedAlias(r: string, mode: ParsingMode)
    requires r == "r"
    ensures ParseColor(r, mode) == Ok(Red)
  {
    ColorSpecParses(Red, mode);
    assert ColorSpec(Red, mode) == r;
  }

  /** `f r`: a named colour on the plain foreground channel, however the
      two words are spaced. */
  lemma RedForeground(spec: string, mode: ParsingMode)
    requires SplitWhitespace(spec) == ["f", "r"]
    ensures ParseStyle(spec, mode) == Ok(SetFg(NewStyle, Red))
  {
    var f, r := "f", "r";
    TwoWords(spec, f, r, mode);
    RedAlias(r, mode);
    ColorPair(NewStyle, f, r, ParamFg, Red, mode);
  }

  /** `b r`: the same on the background. */
  lemma RedBackground(spec: string, mode: ParsingMode)
    requires SplitWhitespace(spec) == ["b", "r"]
    ensures ParseStyle(spec, mode) == Ok(SetBg(NewStyle, Red))
  {
    var b, r := "b", "r";
    TwoWords(spec, b, r, mode);
    RedAlias(r, mode);
    ColorPair(NewStyle, b, r, ParamBg, Red, mode);
  }

  /** `fb r`: the bright flag is the plain setter followed, or preceded, by
      brightening. */
  lemma BrightRedForeground(spec: string, mode: ParsingMode)
    requires SplitWhitespace(spec) == ["fb", "r"]
    ensures ParseStyle(spec, mode) == Ok(FgBrighten(SetFg(NewStyle, Red)))
    ensures ParseStyle(spec, mode) == Ok(SetFg(FgBrighten(NewStyle), Red))
  {
    var fb, r := "fb", "r";
    TwoWords(spec, fb, r, mode);
    RedAlias(r, mode);
    ColorPair(NewStyle, fb, r, ParamFgBright, Red, mode);
    BrightenCommutes(NewStyle, Red);
  }

  /** `bb r`, likewise on the background. */
  lemma BrightRedBackground(spec: string, mode: ParsingMode)
    requires SplitWhitespace(spec) == ["bb", "r"]
    ensures ParseStyle(spec, mode) == Ok(BgBrighten(SetBg(NewStyle, Red)))
    ensures ParseStyle(spec, mode) == Ok(SetBg(BgBrighten(NewStyle), Red))
  {
    var bb, r := "bb", "r";
    TwoWords(spec, bb, r, mode);
    RedAlias(r, mode);
    ColorPair(NewStyle, bb, r, ParamBgBright, Red, mode);
    BrightenCommutes(NewStyle, Red);
  }

  /** `f 99`: a palette index. */
  lemma IndexedForeground(spec: string, mode: ParsingMode)
    requires SplitWhitespace(spec) == ["f", "99"]
    ensures ParseStyle(spec, mode) == Ok(FgIndex(NewStyle, 99))
  {
    var f, n := "f", Decimal(99);
    assert n == "99" by {
      assert Decimal(9) == "9";
    }
    TwoWords(spec, f, n, mode);
    IndexSpecParses(99, mode);
    ColorPair(NewStyle, f, n, ParamFg, Indexed(99), mode);
  }

  /** `b 99`: the same index on the background. */
  lemma IndexedBackground(spec: string, mode: ParsingMode)
    requires SplitWhitespace(spec) == ["b", "99"]
    ensures ParseStyle(spec, mode) == Ok(BgIndex(NewStyle, 99))
  {
    var b, n := "b", Decimal(99);
    assert n == "99" by {
      assert Decimal(9) == "9";
    }
    TwoWords(spec, b, n, mode);
    IndexSpecParses(99, mode);
    ColorPair(NewStyle, b, n, ParamBg, Indexed(99), mode);
  }

  /** A word whose every character is a modifier alias reads as those
      modifiers. */
  lemma AliasWord(w: string, ms: seq<Modifier>)
    requires |w| == |ms|
    requires forall i :: 0 <= i < |w| ==> ModifierFromChar(w[i]) == Some(ms[i])
    ensures ParseModifiers(w) == Ok(ms)
  {
    assert ParseModifiers(w).value == ms;
  }

  /** The modifier word `ilobu` reads as five modifiers, in order. */
  lemma IlobuParses(w: string)
    requires w == "ilobu"
    ensures ParseModifiers(w) == Ok([Italic, DoubleUL, Overline, Bold, Underline])
  {
    var ms := [Italic, DoubleUL, Overline, Bold, Underline];
    forall i | 0 <= i < |w|
      ensures ModifierFromChar(w[i]) == Some(ms[i])
    {
      if i == 0 { assert w[0] == 'i'; }
      else if i == 1 { assert w[1] == 'l'; }
      else if i == 2 { assert w[2] == 'o'; }
      else if i == 3 { assert w[3] == 'b'; }
      else { assert w[4] == 'u'; }
    }
    AliasWord(w, ms);
  }

  /** `m ilobu`: modifiers in the order written. */
  lemma ModifierWord(spec: string, mode: ParsingMode)
    requires SplitWhitespace(spec) == ["m", "ilobu"]
    ensures ParseStyle(spec, mode) == Ok(Style(None, None, [Italic, DoubleUL, Overline, Bold, Underline]))
  {
    var ms := [Italic, DoubleUL, Overline, Bold, Underline];
    var m, w := "m", "ilobu";
    TwoWords(spec, m, w, mode);
    IlobuParses(w);
    ModifierPair(NewStyle, w, ms, mode);
    assert NewStyle.mdfs + ms == ms;
  }

  /** `m b`: a single modifier, the same as the `bold` setter. */
  lemma BoldWord(spec: string, mode: ParsingMode)
    requires SplitWhitespace(spec) == ["m", "b"]
    ensures ParseStyle(spec, mode) == Ok(InsertModifier(NewStyle, Bold))
  {
    var m, w := "m", "b";
    TwoWords(spec, m, w, mode);
    AliasWord(w, [Bold]);
    ModifierPair(NewStyle, w, [Bold], mode);
  }

  /** Bright red on bright yellow has the codes 91 and 103. */
  lemma WarningStyleCodes(s: Style)
    requires s.fg == Some((Red, FgBright)) && s.bg == Some((Yellow, BgBright)) && s.mdfs == []
    ensures StyleCodes(s) == [91, 103]
  {
    assert ChannelCodes(s.fg) == [91] && ChannelCodes(s.bg) == [103];
  }

  /** The codes 91 and 103 are written `91;103`. */
  lemma WarningJoin(codes: seq<nat>)
    requires codes == [91, 103]
    ensures JoinCodes(codes) == "91;103"
  {
    var d91, d103 := Decimal(91), Decimal(103);
    assert d91 == "91" by { assert Decimal(9) == "9"; }
    assert d103 == "103" by { assert Decimal(10) == "10" by { assert Decimal(1) == "1"; } }
    assert JoinCodes(codes) == d91 + ";" + d103;
  }

  /** Bright red on bright yellow compiles to `91;103`. */
  lemma WarningCodes(s: Style)
    requires s.fg == Some((Red, FgBright)) && s.bg == Some((Yellow, BgBright)) && s.mdfs == []
    ensures Collect(s) == "91;103"
  {
    WarningStyleCodes(s);
    WarningJoin(StyleCodes(s));
  }

  /** A spec of four words is its two pairs, applied in order. */
  lemma FourWords(spec: string, f1: string, v1: string, f2: string, v2: string, mode: ParsingMode)
    requires SplitWhitespace(spec) == [f1, v1, f2, v2]
    requires ApplyPair(NewStyle, f1, v1, mode).Ok?
    ensures ParseStyle(spec, mode) == ApplyPair(ApplyPair(NewStyle, f1, v1, mode).value, f2, v2, mode)
  {
    var args := [f1, v1, f2, v2];
    ParseStyleFolds(spec, mode);
    assert args[2..] == [f2, v2];
    FoldOnePair(ApplyPair(NewStyle, f1, v1, mode).value, f2, v2, mode);
  }

  /** `#fff` is white, written as three hex digits. */
  lemma WhiteHex(w: string)
    requires w == "#fff"
    ensures ParseColor(w, Markup) == Ok(RGB(255, 255, 255))
  {
    var ff := Hex2(255);
    assert ff == "ff";
    var f := ff[0];
    var body := [f, f, f, f, f, f];
    var six := Marked(body, Markup);
    assert ParseColor(w, Markup) == ParseColor(six, Markup) by {
      assert w == Marked([f, f, f], Markup);
      HexThreeDigits(f, f, f, Markup);
    }
    assert ParseColor(six, Markup) == Ok(RGB(255, 255, 255)) by {
      assert ToLower(six) == six;
      HexComponentOrder(six, Markup);
      assert ExpandHex(body) == Ok(body);
      assert body[0..2] == ff && body[2..4] == ff && body[4..6] == ff;
      Hex2Parses(255);
    }
  }

  /** A decimal rendering reads back as itself in the comma form. */
  lemma LenientDecimal(n: u8)
    ensures LenientU8(ToLower(Decimal(n))) == n
  {
    DecimalIsPlain(n);
    DecimalParses(n);
  }

  /** An empty component of the comma form is 0. */
  lemma LenientEmpty(e: string)
    requires e == ""
    ensures LenientU8(ToLower(e)) == 0
  {
    assert ToLower(e) == e;
    assert Trim(e) == e;
  }

  /** `255,,` is pure red, written as a comma triple with two empty
      components. */
  lemma RedTriple(t: string)
    requires t == "255,,"
    ensures ParseColor(t, Markup) == Ok(RGB(255, 0, 0))
  {
    var d, e := Decimal(255), "";
    assert d == "255" by {
      assert Decimal(25) == "25" by { assert Decimal(2) == "2"; }
    }
    assert t == d + "," + e + "," + e;
    CommaTriple(d, e, e, Markup);
    LenientDecimal(255);
    LenientEmpty(e);
  }

  /** `f #fff b 255,,`: white on red, both as RGB colours. */
  lemma ErrorStyle(spec: string)
    requires SplitWhitespace(spec) == ["f", "#fff", "b", "255,,"]
    ensures ParseStyle(spec, Markup) == Ok(Style(Some((RGB(255, 255, 255), Fg)), Some((RGB(255, 0, 0), Bg)), []))
  {
    var f, w, b, t := "f", "#fff", "b", "255,,";
    WhiteHex(w);
    RedTriple(t);
    ColorPair(NewStyle, f, w, ParamFg, RGB(255, 255, 255), Markup);
    var white := SetColor(NewStyle, ParamFg, RGB(255, 255, 255));
    FourWords(spec, f, w, b, t, Markup);
    ColorPair(white, b, t, ParamBg, RGB(255, 0, 0), Markup);
  }

  /** White on red has the codes `38;2;255;255;255` and `48;2;255;0;0`. */
  lemma ErrorStyleCodes(s: Style)
    requires s.fg == Some((RGB(255, 255, 255), Fg)) && s.bg == Some((RGB(255, 0, 0), Bg)) && s.mdfs == []
    ensures StyleCodes(s) == [38, 2, 255, 255, 255, 48, 2, 255, 0, 0]
  {
    assert ChannelCodes(s.fg) == [38, 2, 255, 255, 255] && ChannelCodes(s.bg) == [48, 2, 255, 0, 0];
  }

  /** Joining two non-empty code lists is joining each, with a `;` between. */
  lemma {:induction false} JoinAppend(a: seq<nat>, b: seq<nat>)
    requires |a| > 0 && |b| > 0
    ensures JoinCodes(a + b) == JoinCodes(a) + ";" + JoinCodes(b)
    decreases |a|
  {
    assert (a + b)[0] == a[0];
    if |a| > 1 {
      assert (a + b)[1..] == a[1..] + b;
      JoinAppend(a[1..], b);
    } else {
      assert (a + b)[1..] == b;
    }
  }

  /** `38;2;255;255;255`, white on the foreground. */
  lemma WhiteJoin(codes: seq<nat>)
    requires codes == [38, 2, 255, 255, 255]
    ensures JoinCodes(codes) == "38;2;255;255;255"
  {
    var d38, d2, d255 := Decimal(38), Decimal(2), Decimal(255);
    assert d38 == "38" by { assert Decimal(3) == "3"; }
    assert d255 == "255" by {
      assert Decimal(25) == "25" by { assert Decimal(2) == "2"; }
    }
    JoinFive(38, 2, 255, 255, 255);
  }

  /** `48;2;255;0;0`, red on the background. */
  lemma RedJoin(codes: seq<nat>)
    requires codes == [48, 2, 255, 0, 0]
    ensures JoinCodes(codes) == "48;2;255;0;0"
  {
    var d48, d2, d255, d0 := Decimal(48), Decimal(2), Decimal(255), Decimal(0);
    assert d48 == "48" by { assert Decimal(4) == "4"; }
    assert d255 == "255" by {
      assert Decimal(25) == "25" by { assert Decimal(2) == "2"; }
    }
    JoinFive(48, 2, 255, 0, 0);
  }

  /** Those codes are written `38;2;255;255;255;48;2;255;0;0`. */
  lemma ErrorJoin(codes: seq<nat>)
    requires codes == [38, 2, 255, 255, 255, 48, 2, 255, 0, 0]
    ensures JoinCodes(codes) == "38;2;255;255;255;48;2;255;0;0"
  {
    var fg, bg := codes[..5], codes[5..];
    assert codes == fg + bg;
    JoinAppend(fg, bg);
    WhiteJoin(fg);
    RedJoin(bg);
  }

  /** `f #fff b 255,,` compiles to `38;2;255;255;255;48;2;255;0;0`. */
  lemma ErrorCodes(s: Style)
    requires s.fg == Some((RGB(255, 255, 255), Fg)) && s.bg == Some((RGB(255, 0, 0), Bg)) && s.mdfs == []
    ensures Collect(s) == "38;2;255;255;255;48;2;255;0;0"
  {
    ErrorStyleCodes(s);
    ErrorJoin(StyleCodes(s));
  }
}

=== FILE: markup.dfy ===
/** The markup tree of `core/src/markup.rs`: the token stream folded into a
    tree with an explicit stack of open frames, and the tree rendered back
    into one escaped string. */
module MarkupTree {
  import opened Wrappers
  import opened Text
  import opened Styles
  import opened Parser
  import opened Tokenizer

  /** A child: a text run, or a nested node. */
  datatype AstTk = Leaf(text: string) | Tree(node: Markup)

  /** A node: its compiled style and its children in order. */
  datatype Markup = Node(st: CompiledStyle, children: seq<AstTk>)

  /** An open tag waiting for its `End`: its style and the children its
      parent had collected before it. */
  datatype Frame = Frame(style: Style, siblings: seq<AstTk>)

  /** The fold's variables: the open frames, innermost last, and the
      children collected for the innermost open node. */
  datatype Builder = Builder(stack: seq<Frame>, current: seq<AstTk>)

  const Initial: Builder := Builder([], [])

  /** One token. */
  function Feed(b: Builder, tok: Token): (r: Result<Builder, ParsingError>)
    ensures r.Err? <==> tok.End? && |b.stack| == 0
    ensures r.Err? ==> r.error == UnexpectedClosingTag
    ensures r.Ok? ==> |r.value.stack| == |b.stack| + Delta(tok)
  {
    match tok
    case Text(t) => Ok(b.(current := b.current + [Leaf(t)]))
    case Fmt(s) => Ok(Builder(b.stack + [Frame(s, b.current)], []))
    case Empty => Ok(Builder(b.stack + [Frame(NewStyle, b.current)], []))
    case End =>
      if |b.stack| == 0 then Err(UnexpectedClosingTag)
      else
        var top := b.stack[|b.stack| - 1];
        Ok(Builder(b.stack[..|b.stack| - 1], top.siblings + [Tree(Node(Compile(top.style), b.current))]))
  }

  /** The tokens in order; the first error stops the fold. */
  function FeedAll(b: Builder, toks: seq<Token>): Result<Builder, ParsingError>
    decreases |toks|
  {
    if |toks| == 0 then Ok(b)
    else
      var next :- Feed(b, toks[0]);
      FeedAll(next, toks[1..])
  }

  /** `markup_parser` after tokenizing: the root holds what is left once
      every open node is closed, under the empty style. */
  function Build(toks: seq<Token>): (r: Result<Markup, ParsingError>)
    ensures r.Ok? ==> r.value.st == Compile(NewStyle) && r.value.st.codes == ""
  {
    var b :- FeedAll(Initial, toks);
    if |b.stack| > 0 then Err(UnclosedTags)
    else Ok(Node(Compile(NewStyle), b.current))
  }

  /** `markup_parser`: tokenizer and grammar errors come before any tree
      error. */
  function MarkupParse(s: string, mode: ParsingMode): (r: Result<Markup, Failure>)
    ensures Tokenize(s, mode).Err? ==> r == Err(Tokenize(s, mode).error)
    ensures Tokenize(s, mode).Ok? ==>
      && (r.Ok? <==> Build(Tokenize(s, mode).value).Ok?)
      && (r.Err? ==> r.error.Parsing? && r.error.error in {UnexpectedClosingTag, UnclosedTags})
  {
    var toks :- Tokenize(s, mode);
    var m := Build(toks);
    BuildErrors(toks);
    if m.Ok? then Ok(m.value) else Err(Parsing(m.error))
  }

  lemma BuildErrors(toks: seq<Token>)
    ensures Build(toks).Err? ==> Build(toks).error in {UnexpectedClosingTag, UnclosedTags}
  {
    FeedAllBalance(Initial, toks);
  }

  /* ---------------------------------------------------------------- */
  /* Balance                                                          */
  /* ---------------------------------------------------------------- */

  /** How a token moves the nesting depth. */
  function Delta(tok: Token): int {
    match tok
    case Fmt(_) => 1
    case Empty => 1
    case End => -1
    case Text(_) => 0
  }

  /** Opening tags minus closing tags. */
  function Net(toks: seq<Token>): int
    decreases |toks|
  {
    if |toks| == 0 then 0 else Delta(toks[0]) + Net(toks[1..])
  }

  /** Starting `depth` deep, no prefix closes more than is open. */
  predicate NeverBelow(depth: int, toks: seq<Token>) {
    forall k :: 0 <= k <= |toks| ==> depth + Net(toks[..k]) >= 0
  }

  /** Every prefix closes at most what it opened, and the whole closes
      all of it. */
  predicate Balanced(toks: seq<Token>) {
    NeverBelow(0, toks) && Net(toks) == 0
  }

  lemma NeverBelowCons(depth: int, toks: seq<Token>)
    requires |toks| > 0
    ensures NeverBelow(depth, toks) <==> depth >= 0 && NeverBelow(depth + Delta(toks[0]), toks[1..])
  {
    assert toks[..0] == [];
    forall k | 0 <= k <= |toks[1..]|
      ensures Net(toks[..k + 1]) == Delta(toks[0]) + Net(toks[1..][..k])
    {
      assert toks[..k + 1][1..] == toks[1..][..k];
    }
    if depth >= 0 && NeverBelow(depth + Delta(toks[0]), toks[1..]) {
      forall k | 0 <= k <= |toks|
        ensures depth + Net(toks[..k]) >= 0
      {
        if k > 0 {
          assert depth + Delta(toks[0]) + Net(toks[1..][..k - 1]) >= 0;
        }
      }
    }
    if NeverBelow(depth, toks) {
      forall k | 0 <= k <= |toks[1..]|
        ensures depth + Delta(toks[0]) + Net(toks[1..][..k]) >= 0
      {
        assert depth + Net(toks[..k + 1]) >= 0;
      }
    }
  }

  /** The fold fails exactly when some prefix closes a tag that is not
      open, and the depth it ends at is the open count plus the net. */
  lemma {:induction false} FeedAllBalance(b: Builder, toks: seq<Token>)
    ensures FeedAll(b, toks).Ok? <==> NeverBelow(|b.stack|, toks)
    ensures FeedAll(b, toks).Ok? ==> |FeedAll(b, toks).value.stack| == |b.stack| + Net(toks)
    ensures FeedAll(b, toks).Err? ==> FeedAll(b, toks).error == UnexpectedClosingTag
    decreases |toks|
  {
    if |toks| == 0 {
      assert toks[..0] == [];
    } else {
      NeverBelowCons(|b.stack|, toks);
      var next := Feed(b, toks[0]);
      if next.Ok? {
        FeedAllBalance(next.value, toks[1..]);
      } else {
        assert !NeverBelow(|b.stack| + Delta(toks[0]), toks[1..]) by {
          assert toks[1..][..0] == [];
        }
      }
    }
  }

  /** The tree builds exactly when the tags are balanced; otherwise a
      premature `End` is reported if there is one, and unclosed tags if
      not. */
  lemma BuildBalanced(toks: seq<Token>)
    ensures Build(toks).Ok? <==> Balanced(toks)
    ensures !NeverBelow(0, toks) ==> Build(toks) == Err(UnexpectedClosingTag)
    ensures NeverBelow(0, toks) && Net(toks) != 0 ==> Build(toks) == Err(UnclosedTags)
  {
    FeedAllBalance(Initial, toks);
    if NeverBelow(0, toks) {
      assert Net(toks) >= 0 by { assert toks[..|toks|] == toks; }
    }
  }

  /* ---------------------------------------------------------------- */
  /* Contents                                                         */
  /* ---------------------------------------------------------------- */

  /** The token stream with each style replaced by its compiled form: what
      the tree keeps of it. */
  datatype Item = Open(st: CompiledStyle) | Close | Txt(text: string)

  function Erase(tok: Token): Item {
    match tok
    case Fmt(s) => Open(Compile(s))
    case Empty => Open(Compile(NewStyle))
    case End => Close
    case Text(t) => Txt(t)
  }

  function EraseAll(toks: seq<Token>): (r: seq<Item>)
    ensures |r| == |toks| && forall i :: 0 <= i < |toks| ==> r[i] == Erase(toks[i])
  {
    seq(|toks|, i requires 0 <= i < |toks| => Erase(toks[i]))
  }

  lemma EraseAllCons(toks: seq<Token>)
    requires |toks| > 0
    ensures EraseAll(toks) == [Erase(toks[0])] + EraseAll(toks[1..])
  {
  }

  /** A tree written out again: each node between an `Open` of its style
      and a `Close`. */
  function Flatten(items: seq<AstTk>): seq<Item>
    decreases items
  {
    if |items| == 0 then []
    else FlattenOne(items[0]) + Flatten(items[1..])
  }

  function FlattenOne(item: AstTk): seq<Item>
    decreases item
  {
    match item
    case Leaf(t) => [Txt(t)]
    case Tree(n) => [Open(n.st)] + Flatten(n.children) + [Close]
  }

  lemma {:induction false} FlattenConcat(a: seq<AstTk>, b: seq<AstTk>)
    ensures Flatten(a + b) == Flatten(a) + Flatten(b)
    decreases |a|
  {
    if |a| == 0 {
      assert a + b == b;
    } else {
      assert (a + b)[1..] == a[1..] + b;
      FlattenConcat(a[1..], b);
    }
  }

  lemma FlattenSnoc(a: seq<AstTk>, item: AstTk)
    ensures Flatten(a + [item]) == Flatten(a) + FlattenOne(item)
  {
    FlattenConcat(a, [item]);
    assert [item][1..] == [];
  }

  /** Everything the builder holds, written out: each open frame's earlier
      siblings and its `Open`, then the children of the innermost node. */
  function Pending(stack: seq<Frame>): seq<Item>
    decreases |stack|
  {
    if |stack| == 0 then []
    else
      var top := stack[|stack| - 1];
      Pending(stack[..|stack| - 1]) + Flatten(top.siblings) + [Open(Compile(top.style))]
  }

  function Held(b: Builder): seq<Item> {
    Pending(b.stack) + Flatten(b.current)
  }

  lemma PendingPush(stack: seq<Frame>, f: Frame)
    ensures Pending(stack + [f]) == Pending(stack) + Flatten(f.siblings) + [Open(Compile(f.style))]
  {
    assert (stack + [f])[..|stack|] == stack;
  }

  lemma FeedText(b: Builder, t: string)
    ensures Held(b.(current := b.current + [Leaf(t)])) == Held(b) + [Txt(t)]
  {
    FlattenSnoc(b.current, Leaf(t));
  }

  lemma FeedOpen(b: Builder, style: Style)
    ensures Held(Builder(b.stack + [Frame(style, b.current)], [])) == Held(b) + [Open(Compile(style))]
  {
    PendingPush(b.stack, Frame(style, b.current));
  }

  lemma Assoc<T>(a: seq<T>, b: seq<T>, c: seq<T>)
    ensures a + b + c == a + (b + c)
  {
  }

  lemma RegroupItems<T>(p: seq<T>, sib: seq<T>, open: seq<T>, cur: seq<T>, close: seq<T>)
    ensures p + (sib + (open + cur + close)) == p + sib + open + cur + close
  {
  }

  lemma PendingPop(stack: seq<Frame>)
    requires |stack| > 0
    ensures var top := stack[|stack| - 1];
      Pending(stack) == Pending(stack[..|stack| - 1]) + Flatten(top.siblings) + [Open(Compile(top.style))]
  {
  }

  lemma FeedEnd(b: Builder)
    requires |b.stack| > 0
    ensures var top := b.stack[|b.stack| - 1];
      Held(Builder(b.stack[..|b.stack| - 1], top.siblings + [Tree(Node(Compile(top.style), b.current))]))
        == Held(b) + [Close]
  {
    var top := b.stack[|b.stack| - 1];
    var rest := b.stack[..|b.stack| - 1];
    var node := Node(Compile(top.style), b.current);
    var p, sib, open, cur := Pending(rest), Flatten(top.siblings), [Open(Compile(top.style))], Flatten(b.current);
    FlattenSnoc(top.siblings, Tree(node));
    assert FlattenOne(Tree(node)) == open + cur + [Close];
    PendingPop(b.stack);
    RegroupItems(p, sib, open, cur, [Close]);
  }

  /** A token adds its erased form to what the builder holds. */
  lemma FeedHeld(b: Builder, tok: Token)
    requires Feed(b, tok).Ok?
    ensures Held(Feed(b, tok).value) == Held(b) + [Erase(tok)]
  {
    match tok
    case Text(t) => FeedText(b, t);
    case Fmt(s) => FeedOpen(b, s);
    case Empty => FeedOpen(b, NewStyle);
    case End => FeedEnd(b);
  }

  lemma {:induction false} FeedAllHeld(b: Builder, toks: seq<Token>, last: Builder)
    requires FeedAll(b, toks) == Ok(last)
    ensures Held(last) == Held(b) + EraseAll(toks)
    decreases |toks|
  {
    if |toks| == 0 {
      assert EraseAll(toks) == [];
    } else {
      var r := Feed(b, toks[0]);
      assert r.Ok? && FeedAll(r.value, toks[1..]) == Ok(last);
      FeedHeld(b, toks[0]);
      FeedAllHeld(r.value, toks[1..], last);
      EraseAllCons(toks);
      Assoc(Held(b), [Erase(toks[0])], EraseAll(toks[1..]));
    }
  }

  /** Each opening tag becomes a node holding exactly the items up to its
      matching `End`: writing the tree out again gives the token stream,
      with every style compiled. */
  lemma BuildFlattens(toks: seq<Token>)
    requires Build(toks).Ok?
    ensures Flatten(Build(toks).value.children) == EraseAll(toks)
  {
    var b := FeedAll(Initial, toks).value;
    FeedAllHeld(Initial, toks, b);
    assert b.stack == [] && Build(toks).value.children == b.current;
    assert Pending([]) + Flatten(b.current) == Flatten(b.current);
    assert Held(Initial) + EraseAll(toks) == EraseAll(toks);
  }

  /** The text runs of a tree, left to right. */
  function Leaves(items: seq<AstTk>): seq<string>
    decreases items
  {
    if |items| == 0 then [] else LeavesOne(items[0]) + Leaves(items[1..])
  }

  function LeavesOne(item: AstTk): seq<string>
    decreases item
  {
    match item
    case Leaf(t) => [t]
    case Tree(n) => Leaves(n.children)
  }

  /** The texts of a stream of items, in order. */
  function ItemTexts(items: seq<Item>): seq<string>
    decreases |items|
  {
    if |items| == 0 then []
    else (if items[0].Txt? then [items[0].text] else []) + ItemTexts(items[1..])
  }

  function TokenTexts(toks: seq<Token>): seq<string>
    decreases |toks|
  {
    if |toks| == 0 then []
    else (if toks[0].Text? then [toks[0].text] else []) + TokenTexts(toks[1..])
  }

  lemma {:induction false} ItemTextsConcat(a: seq<Item>, b: seq<Item>)
    ensures ItemTexts(a + b) == ItemTexts(a) + ItemTexts(b)
    decreases |a|
  {
    if |a| == 0 {
      assert a + b == b;
    } else {
      assert (a + b)[1..] == a[1..] + b;
      ItemTextsConcat(a[1..], b);
    }
  }

  lemma {:induction false} LeavesFlatten(items: seq<AstTk>)
    ensures Leaves(items) == ItemTexts(Flatten(items))
    decreases items
  {
    if |items| > 0 {
      LeavesFlattenOne(items[0]);
      LeavesFlatten(items[1..]);
      ItemTextsConcat(FlattenOne(items[0]), Flatten(items[1..]));
    }
  }

  lemma {:induction false} LeavesFlattenOne(item: AstTk)
    ensures LeavesOne(item) == ItemTexts(FlattenOne(item))
    decreases item
  {
    match item
    case Leaf(t) =>
      assert ItemTexts([Txt(t)]) == [t] + ItemTexts([]);
    case Tree(n) =>
      LeavesFlatten(n.children);
      ItemTextsConcat([Open(n.st)], Flatten(n.children) + [Close]);
      ItemTextsConcat(Flatten(n.children), [Close]);
      assert ItemTexts([Open(n.st)]) == [] && ItemTexts([Close]) == [];
      assert [Open(n.st)] + Flatten(n.children) + [Close] == [Open(n.st)] + (Flatten(n.children) + [Close]);
  }

  lemma {:induction false} EraseTexts(toks: seq<Token>)
    ensures ItemTexts(EraseAll(toks)) == TokenTexts(toks)
    decreases |toks|
  {
    if |toks| > 0 {
      assert EraseAll(toks)[1..] == EraseAll(toks[1..]);
      EraseTexts(toks[1..]);
    }
  }

  /** The text leaves, left to right, are the text tokens: nothing dropped,
      nothing repeated, nothing moved. */
  lemma BuildLeaves(toks: seq<Token>)
    requires Build(toks).Ok?
    ensures Leaves(Build(toks).value.children) == TokenTexts(toks)
  {
    BuildFlattens(toks);
    LeavesFlatten(Build(toks).value.children);
    EraseTexts(toks);
  }

  /* ---------------------------------------------------------------- */
  /* Rendering                                                        */
  /* ---------------------------------------------------------------- */

  /** The number of text characters in a tree. */
  function TextSize(items: seq<AstTk>): nat
    decreases items
  {
    if |items| == 0 then 0 else TextSizeOne(items[0]) + TextSize(items[1..])
  }

  function TextSizeOne(item: AstTk): nat
    decreases item
  {
    match item
    case Leaf(t) => |t|
    case Tree(n) => TextSize(n.children)
  }

  /** `render`: a text child is wrapped in its node's own style, a subtree
      is rendered on its own. No text is dropped, and a tree without text
      renders as nothing: escape sequences only ever surround text. */
  function Render(m: Markup): (r: string)
    ensures |r| >= TextSize(m.children)
    ensures TextSize(m.children) == 0 ==> r == ""
    decreases m
  {
    RenderItems(m.st, m.children)
  }

  function RenderItems(st: CompiledStyle, items: seq<AstTk>): (r: string)
    ensures |r| >= TextSize(items)
    ensures TextSize(items) == 0 ==> r == ""
    decreases items
  {
    if |items| == 0 then "" else RenderOne(st, items[0]) + RenderItems(st, items[1..])
  }

  function RenderOne(st: CompiledStyle, item: AstTk): (r: string)
    ensures |r| >= TextSizeOne(item)
    ensures TextSizeOne(item) == 0 ==> r == ""
    decreases item
  {
    match item
    case Leaf(t) => ApplyCompiled(st, t)
    case Tree(n) => Render(n)
  }

  /** A streaming renderer over the written-out tree: each text is wrapped
      in the style of the innermost tag open around it. */
  function RenderStream(items: seq<Item>, styles: seq<CompiledStyle>): string
    requires |styles| > 0
    decreases |items|
  {
    if |items| == 0 then ""
    else
      match items[0]
      case Txt(t) => ApplyCompiled(styles[|styles| - 1], t) + RenderStream(items[1..], styles)
      case Open(c) => RenderStream(items[1..], styles + [c])
      case Close => RenderStream(items[1..], if |styles| > 1 then styles[..|styles| - 1] else styles)
  }

  lemma {:induction false} RenderItemsStream(st: CompiledStyle, items: seq<AstTk>, rest: seq<Item>, styles: seq<CompiledStyle>)
    ensures RenderStream(Flatten(items) + rest, styles + [st]) == RenderItems(st, items) + RenderStream(rest, styles + [st])
    decreases items
  {
    if |items| == 0 {
      assert Flatten(items) + rest == rest;
    } else {
      var tail := Flatten(items[1..]) + rest;
      assert Flatten(items) + rest == FlattenOne(items[0]) + tail;
      RenderOneStream(st, items[0], tail, styles);
      RenderItemsStream(st, items[1..], rest, styles);
    }
  }

  lemma {:induction false} RenderOneStream(st: CompiledStyle, item: AstTk, rest: seq<Item>, styles: seq<CompiledStyle>)
    ensures RenderStream(FlattenOne(item) + rest, styles + [st]) == RenderOne(st, item) + RenderStream(rest, styles + [st])
    decreases item
  {
    match item
    case Leaf(t) =>
      assert ([Txt(t)] + rest)[0] == Txt(t);
      assert ([Txt(t)] + rest)[1..] == rest;
    case Tree(n) =>
      var outer := styles + [st];
      var body := Flatten(n.children) + ([Close] + rest);
      assert FlattenOne(item) + rest == [Open(n.st)] + body;
      assert ([Open(n.st)] + body)[1..] == body;
      RenderItemsStream(n.st, n.children, [Close] + rest, outer);
      assert ([Close] + rest)[1..] == rest;
      assert (outer + [n.st])[..|outer + [n.st]| - 1] == outer;
  }

  /** Rendering the tree is streaming over its written-out form from the
      node's own style. */
  lemma RenderIsStream(m: Markup)
    ensures Render(m) == RenderStream(Flatten(m.children), [m.st])
  {
    RenderItemsStream(m.st, m.children, [], []);
    assert Flatten(m.children) + [] == Flatten(m.children);
    assert [] + [m.st] == [m.st];
  }

  /** Parsed markup renders as the token stream does when each text takes
      the style of the innermost tag around it, and top-level text is
      left as it is. */
  lemma ParseRender(s: string, mode: ParsingMode)
    requires MarkupParse(s, mode).Ok?
    ensures Render(MarkupParse(s, mode).value)
      == RenderStream(EraseAll(Tokenize(s, mode).value), [Compile(NewStyle)])
  {
    var toks := Tokenize(s, mode).value;
    BuildFlattens(toks);
    RenderIsStream(Build(toks).value);
  }

  /** A parent's style does not reach into a subtree. */
  lemma RenderDoesNotNest(st: CompiledStyle, inner: Markup, t: string)
    ensures Render(Node(st, [Leaf(t), Tree(inner)])) == ApplyCompiled(st, t) + Render(inner)
  {
    var items := [Leaf(t), Tree(inner)];
    assert items[1..] == [Tree(inner)];
    assert [Tree(inner)][1..] == [];
    assert RenderOne(st, Tree(inner)) == Render(inner);
    assert RenderItems(st, [Tree(inner)]) == Render(inner) + RenderItems(st, []);
    assert RenderItems(st, items) == RenderOne(st, Leaf(t)) + RenderItems(st, [Tree(inner)]);
  }

  /** Only `Open` items of the empty style. */
  predicate Unstyled(items: seq<Item>) {
    forall i :: 0 <= i < |items| && items[i].Open? ==> items[i].st.codes == ""
  }

  predicate AllPlain(styles: seq<CompiledStyle>) {
    forall i :: 0 <= i < |styles| ==> styles[i].codes == ""
  }

  lemma {:induction false} UnstyledStream(items: seq<Item>, styles: seq<CompiledStyle>)
    requires |styles| > 0 && Unstyled(items) && AllPlain(styles)
    ensures RenderStream(items, styles) == Concat(ItemTexts(items))
    decreases |items|
  {
    if |items| > 0 {
      assert Unstyled(items[1..]) by {
        assert forall i :: 0 <= i < |items[1..]| ==> items[1..][i] == items[i + 1];
      }
      match items[0]
      case Txt(t) => UnstyledStream(items[1..], styles);
      case Open(c) =>
        assert c.codes == "" by { assert items[0].Open?; }
        assert AllPlain(styles + [c]);
        UnstyledStream(items[1..], styles + [c]);
        assert RenderStream(items, styles) == RenderStream(items[1..], styles + [c]);
        assert ItemTexts(items) == [] + ItemTexts(items[1..]) == ItemTexts(items[1..]);
      case Close =>
        var popped := if |styles| > 1 then styles[..|styles| - 1] else styles;
        assert AllPlain(popped);
        UnstyledStream(items[1..], popped);
        assert RenderStream(items, styles) == RenderStream(items[1..], popped);
        assert ItemTexts(items) == [] + ItemTexts(items[1..]) == ItemTexts(items[1..]);
    }
  }

  /** Markup whose tags are all `<>` renders as its text runs, one after
      the other. */
  lemma EmptyTagsRenderPlain(s: string, mode: ParsingMode)
    requires MarkupParse(s, mode).Ok?
    requires forall i :: 0 <= i < |Tokenize(s, mode).value| ==> !Tokenize(s, mode).value[i].Fmt?
    ensures Render(MarkupParse(s, mode).value) == Concat(TokenTexts(Tokenize(s, mode).value))
  {
    var toks := Tokenize(s, mode).value;
    ParseRender(s, mode);
    assert Compile(NewStyle).codes == "";
    UnstyledStream(EraseAll(toks), [Compile(NewStyle)]);
    EraseTexts(toks);
  }
}

=== FILE: numbers.dfy ===
/** Unsigned 8-bit numbers as the source reads and writes them: Rust's
    `u8::from_str_radix` (and `str::parse::<u8>`, which is the base-10 case)
    and the decimal rendering `format!("{}")` gives an integer. */
module Numbers {
  import opened Wrappers

  /** Rust's `u8`. */
  type u8 = x: int | 0 <= x < 256

  predicate ValidRadix(radix: nat) {
    radix == 10 || radix == 16
  }

  /** `char::to_digit(radix)` for radix 10 or 16 (both letter cases). */
  function DigitValue(c: char, radix: nat): (r: Option<nat>)
    requires ValidRadix(radix)
    ensures r.Some? ==> r.value < radix
    ensures radix == 10 ==> (r.Some? <==> '0' <= c <= '9')
  {
    if '0' <= c <= '9' then Some(c as int - '0' as int)
    else if radix == 16 && 'a' <= c <= 'f' then Some(c as int - 'a' as int + 10)
    else if radix == 16 && 'A' <= c <= 'F' then Some(c as int - 'A' as int + 10)
    else None
  }

  predicate AllDigits(s: string, radix: nat)
    requires ValidRadix(radix)
  {
    forall i :: 0 <= i < |s| ==> DigitValue(s[i], radix).Some?
  }

  /** The number the digits denote, most significant first. */
  function DigitsValue(s: string, radix: nat): nat
    requires ValidRadix(radix)
    requires AllDigits(s, radix)
  {
    if |s| == 0 then 0
    else DigitsValue(s[..|s| - 1], radix) * radix + DigitValue(s[|s| - 1], radix).value
  }

  /** `u8::from_str_radix(s, radix)`: an optional leading `+`, then at least
      one digit of the radix, denoting a value below 256. A `-` sign is not
      accepted for an unsigned type. */
  function ParseU8(s: string, radix: nat): (r: Option<u8>)
    requires ValidRadix(radix)
    ensures r.Some? ==> |s| > 0 && (s[0] == '+' || DigitValue(s[0], radix).Some?)
    ensures r.Some? ==> forall i :: 1 <= i < |s| ==> DigitValue(s[i], radix).Some?
    ensures r.Some? && s[0] == '+' ==> |s| > 1
    ensures |s| > 0 && AllDigits(s, radix) ==> (r.Some? <==> DigitsValue(s, radix) < 256)
    ensures r.Some? && AllDigits(s, radix) ==> r.value == DigitsValue(s, radix)
  {
    if |s| == 0 then None
    else
      var digits := if s[0] == '+' then s[1..] else s;
      if |digits| == 0 || !AllDigits(digits, radix) then None
      else
        var v := DigitsValue(digits, radix);
        if v < 256 then Some(v) else None
  }

  /** A leading `+` is accepted and ignored. */
  lemma PlusSign(s: string, radix: nat)
    requires ValidRadix(radix)
    requires |s| > 0 && s[0] != '+'
    ensures ParseU8("+" + s, radix) == ParseU8(s, radix)
  {
    assert ("+" + s)[1..] == s;
  }

  /** A number too large for a `u8` is refused, however it is written:
      `256` is not an index. */
  lemma Overflow(n: nat)
    requires n >= 256
    ensures ParseU8(Decimal(n), 10) == None
  {
  }

  /** A leading zero does not change the value: `007` reads as 7. */
  lemma LeadingZero(s: string, radix: nat)
    requires ValidRadix(radix)
    requires |s| > 0 && AllDigits(s, radix)
    ensures ParseU8("0" + s, radix) == ParseU8(s, radix)
  {
    ZeroPrefixValue(s, radix);
  }

  lemma {:induction false} ZeroPrefixValue(s: string, radix: nat)
    requires ValidRadix(radix)
    requires AllDigits(s, radix)
    ensures AllDigits("0" + s, radix)
    ensures DigitsValue("0" + s, radix) == DigitsValue(s, radix)
  {
    var t := "0" + s;
    assert AllDigits(t, radix) by {
      forall i | 0 <= i < |t| ensures DigitValue(t[i], radix).Some? {
        if i > 0 { assert t[i] == s[i - 1]; }
      }
    }
    if |s| == 0 {
      assert t[..0] == "";
    } else {
      assert t[..|t| - 1] == "0" + s[..|s| - 1];
      ZeroPrefixValue(s[..|s| - 1], radix);
    }
  }

  function DigitChar(d: nat): (c: char)
    requires d < 16
    ensures DigitValue(c, 16) == Some(d)
    ensures d < 10 ==> DigitValue(c, 10) == Some(d)
    ensures !('A' <= c <= 'Z') && c != '+' && c != '#'
  {
    if d < 10 then (d + '0' as int) as char else (d - 10 + 'a' as int) as char
  }

  /** The decimal rendering of `n`, without sign or leading zeros. */
  function Decimal(n: nat): (r: string)
    ensures |r| > 0
    ensures AllDigits(r, 10)
    ensures DigitsValue(r, 10) == n
    ensures r[0] == '0' ==> n == 0
  {
    if n < 10 then [DigitChar(n)]
    else
      var r := Decimal(n / 10) + [DigitChar(n % 10)];
      assert r[..|r| - 1] == Decimal(n / 10);
      r
  }

  /** Two lower-case hexadecimal digits for `n`. */
  function Hex2(n: u8): (r: string)
    ensures |r| == 2
    ensures AllDigits(r, 16)
    ensures DigitsValue(r, 16) == n
    ensures forall i :: 0 <= i < 2 ==> !('A' <= r[i] <= 'Z') && r[i] != '+' && r[i] != '#'
  {
    var r := [DigitChar(n / 16), DigitChar(n % 16)];
    assert r[..1][..0] == [];
    assert r[..1] == [r[0]];
    assert DigitsValue(r[..1], 16) == n / 16;
    assert DigitsValue(r, 16) == (n / 16) * 16 + n % 16;
    r
  }

  lemma DecimalParses(n: u8)
    ensures ParseU8(Decimal(n), 10) == Some(n)
  {
  }

  lemma Hex2Parses(n: u8)
    ensures ParseU8(Hex2(n), 16) == Some(n)
  {
  }
}

=== FILE: parser.dfy ===
/** The grammars of `src/parser.rs`: a colour token, a modifier string and
    a whole style spec, a whitespace-separated list of `flag value` pairs
    with the flags `f`, `b`, `fb`, `bb` and `m`. The error values mirror
    `ParsingError` of `src/error.rs`. */
module Parser {
  import opened Wrappers
  import opened Text
  import opened Numbers
  import opened Styles

  /** Where a hex colour carries its `#` marker: in front in markup, at the
      end on the command line. */
  datatype ParsingMode = Markup | CommandLine

  datatype ParsingError =
    | Eof(after: string)
    | InvalidTagChar(ch: char)
    | TooManyArgs(spec: string, count: nat)
    | MissingParamVal(spec: string)
    | InvalidParamName(name: string)
    | InvalidClrSpec(alias: string)
    | InvalidHexClr(hex: string, len: nat)
    | InvalidHexComp(component: char, expanded: string)
    | UnknownClrFmt(spec: string)
    | UnexpectedClosingTag
    | UnclosedTags
    | InvalidModifier(ch: char)

  /** The errors a colour token can produce. */
  predicate IsColorError(e: ParsingError) {
    e.InvalidClrSpec? || e.InvalidHexClr? || e.InvalidHexComp? || e.UnknownClrFmt?
  }

  /* ---------------------------------------------------------------- */
  /* Colours                                                          */
  /* ---------------------------------------------------------------- */

  /** The hex digits after the marker is stripped, if the token carries
      the marker of the mode. */
  function HexBody(s: string, mode: ParsingMode): (r: Option<string>)
    ensures r.Some? <==> |s| > 0 && (if mode.Markup? then s[0] else s[|s| - 1]) == '#'
    ensures r.Some? ==> s == if mode.Markup? then "#" + r.value else r.value + "#"
  {
    match mode
    case Markup => if |s| > 0 && s[0] == '#' then Some(s[1..]) else None
    case CommandLine => if |s| > 0 && s[|s| - 1] == '#' then Some(s[..|s| - 1]) else None
  }

  /** Brings a hex body to six digits: two digits are repeated three
      times, each of three digits is doubled, six are kept. */
  function ExpandHex(hex: string): (r: Result<string, ParsingError>)
    ensures r.Ok? <==> |hex| in {2, 3, 6}
    ensures r.Ok? ==> |r.value| == 6
    ensures r.Err? ==> r.error == InvalidHexClr(hex, |hex|)
  {
    if |hex| == 2 then Ok(hex + hex + hex)
    else if |hex| == 3 then Ok([hex[0], hex[0], hex[1], hex[1], hex[2], hex[2]])
    else if |hex| == 6 then Ok(hex)
    else Err(InvalidHexClr(hex, |hex|))
  }

  /** One two-digit component; `name` is `r`, `g` or `b`. */
  function HexComponent(expanded: string, name: char, from: nat): Result<u8, ParsingError>
    requires from + 2 <= |expanded|
  {
    match ParseU8(expanded[from..from + 2], 16)
    case Some(v) => Ok(v)
    case None => Err(InvalidHexComp(name, expanded))
  }

  /** An expanded hex body read as red, green and blue components, checked
      in that order. */
  function ParseHex(hex: string): (r: Result<Color, ParsingError>)
    ensures r.Ok? ==> r.value.RGB?
    ensures r.Err? ==> r.error.InvalidHexClr? || r.error.InvalidHexComp?
  {
    var expanded :- ExpandHex(hex);
    var r :- HexComponent(expanded, 'r', 0);
    var g :- HexComponent(expanded, 'g', 2);
    var b :- HexComponent(expanded, 'b', 4);
    Ok(RGB(r, g, b))
  }

  /** A component of the comma form: trimmed and read as a decimal `u8`,
      or 0 when that fails. */
  function LenientU8(part: string): u8
  {
    match ParseU8(Trim(part), 10)
    case Some(v) => v
    case None => 0
  }

  /** `parse_color`: the token is lower-cased, then read as a one-letter
      alias, a decimal palette index, a hex colour with the mode's marker,
      or an `r,g,b` triple, first match wins. */
  function ParseColor(spec: string, mode: ParsingMode): (r: Result<Color, ParsingError>)
    ensures r.Err? ==> IsColorError(r.error)
    ensures r.Ok? && IsNamed(r.value) ==> |spec| == 1
    ensures r.Ok? && r.value.Indexed? ==> ParseU8(ToLower(spec), 10) == Some(r.value.index)
  {
    var s := ToLower(spec);
    if |s| == 1 && !IsDigit(s[0]) then
      match ColorFromChar(s[0])
      case Some(c) => Ok(c)
      case None => Err(InvalidClrSpec(s))
    else if ParseU8(s, 10).Some? then Ok(Indexed(ParseU8(s, 10).value))
    else if HexBody(s, mode).Some? then ParseHex(HexBody(s, mode).value)
    else
      var parts := Split(s, ',');
      if |parts| == 3 then Ok(RGB(LenientU8(parts[0]), LenientU8(parts[1]), LenientU8(parts[2])))
      else Err(UnknownClrFmt(s))
  }

  /** Any decimal `u8` token is a palette index, except a one-character
      token that is not a digit (`+` alone is not a number either). */
  lemma ParseColorIndex(spec: string, mode: ParsingMode)
    requires ParseU8(ToLower(spec), 10).Some?
    ensures ParseColor(spec, mode) == Ok(Indexed(ParseU8(ToLower(spec), 10).value))
  {
  }

  /** Colour tokens are case-insensitive. */
  lemma ParseColorIgnoresCase(spec: string, mode: ParsingMode)
    ensures ParseColor(spec, mode) == ParseColor(ToLower(spec), mode)
  {
    ToLowerIsLower(spec);
  }

  lemma ToLowerConcat(a: string, b: string)
    ensures ToLower(a + b) == ToLower(a) + ToLower(b)
  {
  }

  /** A token longer than one character that carries the mode's marker is
      read as hex: it cannot be a decimal, since the marker is not a digit
      nor a sign (in front) and not a leading character (at the end). */
  lemma ByHex(spec: string, mode: ParsingMode)
    requires |spec| > 1 && HexBody(ToLower(spec), mode).Some?
    ensures ParseColor(spec, mode) == ParseHex(HexBody(ToLower(spec), mode).value)
  {
    var s := ToLower(spec);
    assert ParseU8(s, 10).None? by {
      if mode.Markup? {
        assert s[0] == '#';
      } else {
        assert s[|s| - 1] == '#';
      }
    }
  }

  /** A hex body with the marker of the mode attached. */
  function Marked(body: string, mode: ParsingMode): (r: string)
    ensures |r| == |body| + 1
    ensures HexBody(r, mode) == Some(body)
  {
    match mode
    case Markup => "#" + body
    case CommandLine => body + "#"
  }

  /** Lower-casing leaves the marker alone. */
  lemma MarkedLower(body: string, mode: ParsingMode)
    ensures ToLower(Marked(body, mode)) == Marked(ToLower(body), mode)
  {
    ToLowerConcat("#", body);
    ToLowerConcat(body, "#");
  }

  /** Two hex bodies that expand alike denote the same colour once marked. */
  lemma SameExpansion(p: string, q: string, mode: ParsingMode)
    requires |p| > 0 && |q| > 0
    requires ExpandHex(ToLower(p)) == ExpandHex(ToLower(q))
    ensures ParseColor(Marked(p, mode), mode) == ParseColor(Marked(q, mode), mode)
  {
    MarkedLower(p, mode);
    MarkedLower(q, mode);
    ByHex(Marked(p, mode), mode);
    ByHex(Marked(q, mode), mode);
    assert ParseHex(ToLower(p)) == ParseHex(ToLower(q));
  }

  /** A three-digit hex colour means the six-digit colour with every digit
      doubled, for any three characters after the marker. */
  lemma HexThreeDigits(a: char, b: char, c: char, mode: ParsingMode)
    ensures ParseColor(Marked([a, b, c], mode), mode) == ParseColor(Marked([a, a, b, b, c, c], mode), mode)
  {
    var x, y, z := LowerChar(a), LowerChar(b), LowerChar(c);
    assert ToLower([a, b, c]) == [x, y, z];
    assert ToLower([a, a, b, b, c, c]) == [x, x, y, y, z, z];
    SameExpansion([a, b, c], [a, a, b, b, c, c], mode);
  }

  /** A two-digit hex colour is accepted and means its digits repeated three
      times: `#12` is RGB(0x12, 0x12, 0x12). */
  lemma HexTwoDigits(a: char, b: char, mode: ParsingMode)
    ensures ParseColor(Marked([a, b], mode), mode) == ParseColor(Marked([a, b, a, b, a, b], mode), mode)
  {
    var x, y := LowerChar(a), LowerChar(b);
    assert [x, y] + [x, y] + [x, y] == [x, y, x, y, x, y];
    assert ToLower([a, b]) == [x, y];
    assert ToLower([a, b, a, b, a, b]) == [x, y, x, y, x, y];
    SameExpansion([a, b], [a, b, a, b, a, b], mode);
  }

  /** A token with exactly two commas is an RGB colour whose unreadable
      components are 0, unless it carries the hex marker of the mode (a
      leading `#` in markup, a trailing one on the command line), which
      makes it a hex token instead. */
  lemma CommaTriple(x: string, y: string, z: string, mode: ParsingMode)
    requires ',' !in x && ',' !in y && ',' !in z
    requires mode.Markup? ==> |x| == 0 || x[0] != '#'
    requires mode.CommandLine? ==> |z| == 0 || z[|z| - 1] != '#'
    ensures ParseColor(x + "," + y + "," + z, mode)
         == Ok(RGB(LenientU8(ToLower(x)), LenientU8(ToLower(y)), LenientU8(ToLower(z))))
  {
    var spec := x + "," + y + "," + z;
    var s := ToLower(spec);
    SplitTriple(x, y, z);
    assert s[|x|] == ',';
    assert ParseU8(s, 10).None? by {
      if s[0] == '+' {
        assert |x| > 0;
      }
    }
    assert HexBody(s, mode).None? by {
      if mode.Markup? && |x| > 0 {
        assert s[0] == LowerChar(x[0]);
      } else if mode.CommandLine? && |z| > 0 {
        assert s[|s| - 1] == LowerChar(z[|z| - 1]);
      }
    }
    ByCommas(spec, mode);
  }

  /** Lower-casing and splitting a comma triple. */
  lemma SplitTriple(x: string, y: string, z: string)
    requires ',' !in x && ',' !in y && ',' !in z
    ensures var s := ToLower(x + "," + y + "," + z);
      && s == ToLower(x) + "," + ToLower(y) + "," + ToLower(z)
      && Split(s, ',') == [ToLower(x), ToLower(y), ToLower(z)]
  {
    var parts := [ToLower(x), ToLower(y), ToLower(z)];
    var s := Join(parts, [',']);
    assert s == ToLower(x) + "," + ToLower(y) + "," + ToLower(z) by {
      assert Join(parts[2..], [',']) == ToLower(z);
      assert Join(parts[1..], [',']) == ToLower(y) + "," + ToLower(z);
    }
    assert ToLower(x + "," + y + "," + z) == s by {
      ToLowerConcat(x + "," + y + ",", z);
      ToLowerConcat(x + "," + y, ",");
      ToLowerConcat(x + ",", y);
      ToLowerConcat(x, ",");
    }
    SplitJoin(parts, ',');
  }

  /** The last resort of `ParseColor`: a token that is neither an alias, an
      index nor a hex colour. */
  lemma ByCommas(spec: string, mode: ParsingMode)
    requires |spec| != 1
    requires ParseU8(ToLower(spec), 10).None? && HexBody(ToLower(spec), mode).None?
    requires |Split(ToLower(spec), ',')| == 3
    ensures var parts := Split(ToLower(spec), ',');
      ParseColor(spec, mode) == Ok(RGB(LenientU8(parts[0]), LenientU8(parts[1]), LenientU8(parts[2])))
  {
  }

  /* Which error a failing colour token gets, by the branch that rejects it. */

  /** A one-character token that is neither a digit nor a colour letter is
      `InvalidClrSpec`, naming the lower-cased character. */
  lemma UnknownAlias(spec: string, mode: ParsingMode)
    requires |spec| == 1
    requires !IsDigit(ToLower(spec)[0]) && ColorFromChar(ToLower(spec)[0]).None?
    ensures ParseColor(spec, mode) == Err(InvalidClrSpec(ToLower(spec)))
  {
  }

  /** A marked token whose hex body is not 2, 3 or 6 characters long is
      `InvalidHexClr`, carrying the body and its length. (The marker alone
      is one character, which `UnknownAlias` covers.) */
  lemma BadHexLength(spec: string, mode: ParsingMode)
    requires |spec| > 1 && HexBody(ToLower(spec), mode).Some?
    requires |HexBody(ToLower(spec), mode).value| !in {2, 3, 6}
    ensures var body := HexBody(ToLower(spec), mode).value;
      ParseColor(spec, mode) == Err(InvalidHexClr(body, |body|))
  {
    ByHex(spec, mode);
  }

  /** The expanded digits of a marked token are read as red, green and blue,
      in that order; the first pair that is not a hex `u8` is
      `InvalidHexComp`, naming its component and carrying the expansion. */
  lemma HexComponentOrder(spec: string, mode: ParsingMode)
    requires |spec| > 1 && HexBody(ToLower(spec), mode).Some?
    requires ExpandHex(HexBody(ToLower(spec), mode).value).Ok?
    ensures var e := ExpandHex(HexBody(ToLower(spec), mode).value).value;
      var r := ParseU8(e[0..2], 16);
      var g := ParseU8(e[2..4], 16);
      var b := ParseU8(e[4..6], 16);
      ParseColor(spec, mode)
        == if r.None? then Err(InvalidHexComp('r', e))
           else if g.None? then Err(InvalidHexComp('g', e))
           else if b.None? then Err(InvalidHexComp('b', e))
           else Ok(RGB(r.value, g.value, b.value))
  {
    ByHex(spec, mode);
  }

  /** A token that is not one character, not a decimal `u8`, carries no hex
      marker and does not split into three comma-separated parts is
      `UnknownClrFmt`, naming the lower-cased token. */
  lemma UnknownFormat(spec: string, mode: ParsingMode)
    requires |spec| != 1
    requires ParseU8(ToLower(spec), 10).None? && HexBody(ToLower(spec), mode).None?
    requires |Split(ToLower(spec), ',')| != 3
    ensures ParseColor(spec, mode) == Err(UnknownClrFmt(ToLower(spec)))
  {
  }

  /** The decimal rendering of a number is already lower-case, blank-free
      and free of the comma and the hex marker. */
  lemma DecimalIsPlain(n: nat)
    ensures ToLower(Decimal(n)) == Decimal(n)
    ensures Trim(Decimal(n)) == Decimal(n)
    ensures ',' !in Decimal(n) && '#' !in Decimal(n)
  {
    var d := Decimal(n);
    forall i | 0 <= i < |d|
      ensures LowerChar(d[i]) == d[i] && !IsWhitespace(d[i]) && d[i] != ',' && d[i] != '#'
    {
      assert DigitValue(d[i], 10).Some?;
    }
  }

  /** A decimal index of 256 or more is not a `u8`, and nothing else reads
      it: `f 256` is an unknown colour format. */
  lemma IndexOverflow(n: nat, mode: ParsingMode)
    requires n >= 256
    ensures ParseColor(Decimal(n), mode) == Err(UnknownClrFmt(Decimal(n)))
  {
    var d := Decimal(n);
    DecimalIsPlain(n);
    Overflow(n);
    assert |d| > 1 by {
      assert d == Decimal(n / 10) + [DigitChar(n % 10)];
    }
    assert HexBody(d, mode).None? by {
      assert d[0] in d && d[|d| - 1] in d;
    }
    SplitNoSeparator(d, ',');
    UnknownFormat(d, mode);
  }

  /** A component of the comma form that overflows a `u8` is 0, as
      `unwrap_or(0)` makes it: `300,0,0` is black. */
  lemma LenientOverflow(n: nat)
    requires n >= 256
    ensures LenientU8(ToLower(Decimal(n))) == 0
  {
    DecimalIsPlain(n);
    Overflow(n);
  }

  /* ---------------------------------------------------------------- */
  /* Modifiers                                                        */
  /* ---------------------------------------------------------------- */

  /** `parse_modfiers`: each character through the modifier alias table,
      in order; the first unknown character is the error. */
  function ParseModifiers(input: string): (r: Result<seq<Modifier>, ParsingError>)
    ensures r.Ok? <==> forall i :: 0 <= i < |input| ==> ModifierFromChar(input[i]).Some?
    ensures r.Ok? ==> |r.value| == |input|
    ensures r.Ok? ==> forall i :: 0 <= i < |input| ==> Some(r.value[i]) == ModifierFromChar(input[i])
    ensures r.Err? ==> exists i :: 0 <= i < |input| && r.error == InvalidModifier(input[i])
                                   && ModifierFromChar(input[i]).None?
                                   && forall j :: 0 <= j < i ==> ModifierFromChar(input[j]).Some?
  {
    if |input| == 0 then Ok([])
    else
      match ModifierFromChar(input[0])
      case None => Err(InvalidModifier(input[0]))
      case Some(m) =>
        var rest :- ParseModifiers(input[1..]);
        assert forall i :: 1 <= i < |input| ==> input[i] == input[1..][i - 1];
        Ok([m] + rest)
  }

  /* ---------------------------------------------------------------- */
  /* Style specs                                                      */
  /* ---------------------------------------------------------------- */

  predicate NoReset(ms: seq<Modifier>) {
    forall i :: 0 <= i < |ms| ==> ms[i] != Reset
  }

  /** The flags of a style spec: foreground, background, bright
      foreground, bright background and modifiers. */
  datatype Param = ParamFg | ParamBg | ParamFgBright | ParamBgBright | ParamModifiers

  function ParamOf(flag: string): (r: Option<Param>)
    ensures r.None? <==> flag !in {"f", "b", "fb", "bb", "m"}
    ensures r == Some(ParamModifiers) <==> flag == "m"
  {
    if flag == "f" then Some(ParamFg)
    else if flag == "b" then Some(ParamBg)
    else if flag == "fb" then Some(ParamFgBright)
    else if flag == "bb" then Some(ParamBgBright)
    else if flag == "m" then Some(ParamModifiers)
    else None
  }

  /** A colour flag's setter: `fb` and `bb` set the colour, then brighten. */
  function SetColor(s: Style, p: Param, c: Color): (r: Style)
    requires p != ParamModifiers
    ensures r.mdfs == s.mdfs
    ensures p == ParamFg || p == ParamFgBright ==> r.bg == s.bg && r.fg.Some? && r.fg.value.0 == c
    ensures p == ParamBg || p == ParamBgBright ==> r.fg == s.fg && r.bg.Some? && r.bg.value.0 == c
    ensures Canonical(s) ==> Canonical(r)
  {
    match p
    case ParamFg => SetFg(s, c)
    case ParamBg => SetBg(s, c)
    case ParamFgBright => FgBrighten(SetFg(s, c))
    case ParamBgBright => BgBrighten(SetBg(s, c))
  }

  /** The value of a flag read and applied to the style. */
  function ApplyParam(s: Style, p: Param, value: string, mode: ParsingMode): (r: Result<Style, ParsingError>)
    ensures r.Ok? && Canonical(s) ==> Canonical(r.value)
    ensures r.Ok? && NoReset(s.mdfs) ==> NoReset(r.value.mdfs)
  {
    if p == ParamModifiers then
      var ms :- ParseModifiers(value);
      Ok(s.(mdfs := s.mdfs + ms))
    else
      var c :- ParseColor(value, mode);
      Ok(SetColor(s, p, c))
  }

  /** One `flag value` pair folded into the style. */
  function ApplyPair(s: Style, flag: string, value: string, mode: ParsingMode): (r: Result<Style, ParsingError>)
    ensures r.Ok? && Canonical(s) ==> Canonical(r.value)
    ensures r.Ok? && NoReset(s.mdfs) ==> NoReset(r.value.mdfs)
    ensures flag !in {"f", "b", "fb", "bb", "m"} ==> r == Err(InvalidParamName(flag))
  {
    match ParamOf(flag)
    case None => Err(InvalidParamName(flag))
    case Some(p) => ApplyParam(s, p, value, mode)
  }

  /** A colour flag with a value that reads as `c` sets `c` on its channel. */
  lemma ColorPair(s: Style, flag: string, value: string, p: Param, c: Color, mode: ParsingMode)
    requires ParamOf(flag) == Some(p) && p != ParamModifiers
    requires ParseColor(value, mode) == Ok(c)
    ensures ApplyPair(s, flag, value, mode) == Ok(SetColor(s, p, c))
  {
  }

  /** `m` with a word that reads as `ms` appends `ms` to the modifiers. */
  lemma ModifierPair(s: Style, value: string, ms: seq<Modifier>, mode: ParsingMode)
    requires ParseModifiers(value) == Ok(ms)
    ensures ApplyPair(s, "m", value, mode) == Ok(s.(mdfs := s.mdfs + ms))
  {
    assert ParamOf("m") == Some(ParamModifiers);
  }

  /** A style that the setters can produce from the empty style: each
      colour on a channel of its own side, and no `Reset` modifier. */
  predicate WellFormed(s: Style) {
    Canonical(s) && NoReset(s.mdfs)
  }

  /** The step `parse_style` takes for each pair, in the given mode. */
  function PairStep(mode: ParsingMode): (Style, string, string) -> Result<Style, ParsingError>
  {
    (s: Style, flag: string, value: string) => ApplyPair(s, flag, value, mode)
  }

  /** The pairs folded left to right with `step`; the first failing step's
      error is the result. */
  function FoldPairs(s: Style, args: seq<string>, step: (Style, string, string) -> Result<Style, ParsingError>): Result<Style, ParsingError>
    requires |args| % 2 == 0
    decreases |args|
  {
    if |args| == 0 then Ok(s)
    else
      var next :- step(s, args[0], args[1]);
      FoldPairs(next, args[2..], step)
  }

  /** The fold keeps any invariant that every successful step keeps. */
  lemma {:induction false} FoldKeeps(s: Style, args: seq<string>, step: (Style, string, string) -> Result<Style, ParsingError>)
    requires |args| % 2 == 0
    requires forall st, f, v :: WellFormed(st) && step(st, f, v).Ok? ==> WellFormed(step(st, f, v).value)
    requires WellFormed(s)
    ensures FoldPairs(s, args, step).Ok? ==> WellFormed(FoldPairs(s, args, step).value)
    decreases |args|
  {
    if |args| > 0 {
      var next := step(s, args[0], args[1]);
      if next.Ok? {
        FoldKeeps(next.value, args[2..], step);
      }
    }
  }

  /** `parse_style`: more than six words is `TooManyArgs` (checked first),
      an odd number of words is `MissingParamVal`, otherwise the pairs are
      folded into the empty style. */
  function ParseStyle(spec: string, mode: ParsingMode): (r: Result<Style, ParsingError>)
    ensures var n := |SplitWhitespace(spec)|;
      && (n > 6 ==> r == Err(TooManyArgs(spec, n)))
      && (n <= 6 && n % 2 == 1 ==> r == Err(MissingParamVal(spec)))
      && (n == 0 ==> r == Ok(NewStyle))
    ensures r.Ok? ==> WellFormed(r.value)
  {
    var args := SplitWhitespace(spec);
    if |args| > 6 then Err(TooManyArgs(spec, |args|))
    else if |args| % 2 == 1 then Err(MissingParamVal(spec))
    else
      FoldKeeps(NewStyle, args, PairStep(mode));
      FoldPairs(NewStyle, args, PairStep(mode))
  }

  /** A spec of at most three pairs is the fold of its words. */
  lemma ParseStyleFolds(spec: string, mode: ParsingMode)
    requires |SplitWhitespace(spec)| <= 6 && |SplitWhitespace(spec)| % 2 == 0
    ensures ParseStyle(spec, mode) == FoldPairs(NewStyle, SplitWhitespace(spec), PairStep(mode))
  {
  }

  /** A spec of blanks only is the empty style. */
  lemma BlankSpec(spec: string, mode: ParsingMode)
    requires forall i :: 0 <= i < |spec| ==> IsWhitespace(spec[i])
    ensures ParseStyle(spec, mode) == Ok(NewStyle)
  {
    SplitWhitespaceBlank(spec);
  }

  /** Once a pair fails, the pairs after it are never looked at. */
  lemma {:induction false} FirstErrorWins(s: Style, a: seq<string>, b: seq<string>, step: (Style, string, string) -> Result<Style, ParsingError>)
    requires |a| % 2 == 0 && |b| % 2 == 0
    requires FoldPairs(s, a, step).Err?
    ensures FoldPairs(s, a + b, step) == FoldPairs(s, a, step)
    decreases |a|
  {
    if |a| > 0 {
      assert (a + b)[0] == a[0] && (a + b)[1] == a[1];
      assert (a + b)[2..] == a[2..] + b;
      var next := step(s, a[0], a[1]);
      if next.Ok? {
        FirstErrorWins(next.value, a[2..], b, step);
      }
    }
  }

  /** Successful pairs compose: folding `a + b` folds `a`, then `b` from
      where `a` left the style. */
  lemma {:induction false} PairsCompose(s: Style, a: seq<string>, b: seq<string>, step: (Style, string, string) -> Result<Style, ParsingError>)
    requires |a| % 2 == 0 && |b| % 2 == 0
    requires FoldPairs(s, a, step).Ok?
    ensures FoldPairs(s, a + b, step) == FoldPairs(FoldPairs(s, a, step).value, b, step)
    decreases |a|
  {
    if |a| == 0 {
      assert a + b == b;
    } else {
      assert (a + b)[0] == a[0] && (a + b)[1] == a[1];
      assert (a + b)[2..] == a[2..] + b;
      var next := step(s, a[0], a[1]);
      if next.Ok? {
        PairsCompose(next.value, a[2..], b, step);
      }
    }
  }
}

=== FILE: sgr.dfy ===
/** A reader for the escape sequences the compiler writes: it splits a
    styled text into its SGR parameter list and its text, and decodes the
    parameter list back into a style. It is the inverse the compiler is
    checked against: every style the grammars can produce survives
    `Collect` followed by `DecodeSgr` (up to the bright channel of
    indexed and RGB colours, which the escape form does not carry). */
module Sgr {
  import opened Wrappers
  import opened Text
  import opened Numbers
  import opened Styles

  /* ---------------------------------------------------------------- */
  /* Parameter lists                                                  */
  /* ---------------------------------------------------------------- */

  /** Decimal numbers separated by `;`; the empty string is the empty list. */
  function ParseParams(s: string): Option<seq<nat>>
  {
    if s == "" then Some([]) else ParseNumbers(Split(s, ';'))
  }

  function ParseNumbers(parts: seq<string>): (r: Option<seq<nat>>)
    ensures r.Some? ==> |r.value| == |parts|
  {
    if |parts| == 0 then Some([])
    else if |parts[0]| == 0 || !AllDigits(parts[0], 10) then None
    else
      var rest :- ParseNumbers(parts[1..]);
      Some([DigitsValue(parts[0], 10)] + rest)
  }

  function Decimals(codes: seq<nat>): (r: seq<string>)
    ensures |r| == |codes|
    ensures forall k :: 0 <= k < |r| ==> r[k] == Decimal(codes[k])
  {
    if |codes| == 0 then [] else [Decimal(codes[0])] + Decimals(codes[1..])
  }

  lemma {:induction false} JoinCodesIsJoin(codes: seq<nat>)
    ensures JoinCodes(codes) == Join(Decimals(codes), ";")
  {
    if |codes| > 1 {
      JoinCodesIsJoin(codes[1..]);
      assert Decimals(codes)[1..] == Decimals(codes[1..]);
    }
  }

  lemma {:induction false} ParseDecimals(codes: seq<nat>)
    ensures ParseNumbers(Decimals(codes)) == Some(codes)
  {
    if |codes| > 0 {
      var parts := Decimals(codes);
      ParseDecimals(codes[1..]);
      assert parts[1..] == Decimals(codes[1..]);
      assert parts[0] == Decimal(codes[0]);
      assert DigitsValue(parts[0], 10) == codes[0];
      assert [codes[0]] + codes[1..] == codes;
    }
  }

  /** Reading back a joined code list gives the codes. */
  lemma ParseParamsJoinCodes(codes: seq<nat>)
    ensures ParseParams(JoinCodes(codes)) == Some(codes)
  {
    if |codes| > 0 {
      JoinCodesIsJoin(codes);
      var parts := Decimals(codes);
      forall k | 0 <= k < |parts|
        ensures ';' !in parts[k]
      {
        assert AllDigits(parts[k], 10);
      }
      SplitJoin(parts, ';');
      ParseDecimals(codes);
    }
  }

  /* ---------------------------------------------------------------- */
  /* Decoding codes into a style                                      */
  /* ---------------------------------------------------------------- */

  /** The named hue whose base code is 30 + k. */
  function NamedColor(k: nat): (c: Color)
    requires k < 8
    ensures IsNamed(c) && ToNum(c) == 30 + k
  {
    [Black, Red, Green, Yellow, Blue, Magenta, Cyan, White][k]
  }

  /** Reads at most one colour selection for the foreground (`fg`) or the
      background from the front of the codes; fails on a malformed
      extended-colour selection. */
  function DecodeChannel(codes: seq<nat>, fg: bool): Option<(Option<(Color, ClrType)>, seq<nat>)>
  {
    var base := if fg then 30 else 40;
    var plain := if fg then Fg else Bg;
    var bright := if fg then FgBright else BgBright;
    if |codes| == 0 then Some((None, codes))
    else if base <= codes[0] < base + 8 then
      Some((Some((NamedColor(codes[0] - base), plain)), codes[1..]))
    else if base + 60 <= codes[0] < base + 68 then
      Some((Some((NamedColor(codes[0] - base - 60), bright)), codes[1..]))
    else if codes[0] == base + 8 then
      if |codes| >= 3 && codes[1] == 5 && codes[2] < 256 then
        Some((Some((Indexed(codes[2]), plain)), codes[3..]))
      else if |codes| >= 5 && codes[1] == 2 && codes[2] < 256 && codes[3] < 256 && codes[4] < 256 then
        Some((Some((RGB(codes[2], codes[3], codes[4]), plain)), codes[5..]))
      else None
    else Some((None, codes))
  }

  function ModifierOfCode(n: nat): (r: Option<Modifier>)
    ensures r.Some? ==> ModifierCode(r.value) == n
  {
    match n
    case 0 => Some(Reset)
    case 1 => Some(Bold)
    case 2 => Some(Dim)
    case 3 => Some(Italic)
    case 4 => Some(Underline)
    case 5 => Some(Blink)
    case 7 => Some(Invert)
    case 8 => Some(Hide)
    case 9 => Some(Strike)
    case 21 => Some(DoubleUL)
    case 53 => Some(Overline)
    case _ => None
  }

  function DecodeModifiers(codes: seq<nat>): (r: Option<seq<Modifier>>)
    ensures r.Some? ==> |r.value| == |codes|
  {
    if |codes| == 0 then Some([])
    else
      var m :- ModifierOfCode(codes[0]);
      var rest :- DecodeModifiers(codes[1..]);
      Some([m] + rest)
  }

  /** Foreground selection, background selection, then modifier codes. */
  function DecodeCodes(codes: seq<nat>): Option<Style>
  {
    var f :- DecodeChannel(codes, true);
    var b :- DecodeChannel(f.1, false);
    var ms :- DecodeModifiers(b.1);
    Some(Style(f.0, b.0, ms))
  }

  function DecodeSgr(params: string): Option<Style>
  {
    var codes :- ParseParams(params);
    DecodeCodes(codes)
  }

  function CanonChannel(p: Option<(Color, ClrType)>, plain: ClrType): Option<(Color, ClrType)>
  {
    if p.Some? && !IsNamed(p.value.0) then Some((p.value.0, plain)) else p
  }

  /** What the escape form keeps of a style: indexed and RGB colours are
      written the same on the plain and the bright channel. */
  function Canon(s: Style): Style
  {
    Style(CanonChannel(s.fg, Fg), CanonChannel(s.bg, Bg), s.mdfs)
  }

  lemma {:induction false} DecodeModifierCodes(ms: seq<Modifier>)
    ensures DecodeModifiers(ModifierCodes(ms)) == Some(ms)
  {
    if |ms| > 0 {
      DecodeModifierCodes(ms[1..]);
      assert ModifierCodes(ms)[1..] == ModifierCodes(ms[1..]);
      ModifierOfCodeInverse(ms[0]);
      assert [ms[0]] + ms[1..] == ms;
    }
  }

  lemma ModifierOfCodeInverse(m: Modifier)
    ensures ModifierOfCode(ModifierCode(m)) == Some(m)
  {
  }

  /** A present channel is read back exactly, whatever follows it. */
  lemma DecodePresentChannel(c: Color, ct: ClrType, fg: bool, rest: seq<nat>)
    requires fg <==> IsForeground(ct)
    ensures DecodeChannel(ColorCodes(c, ct) + rest, fg)
         == Some((CanonChannel(Some((c, ct)), if fg then Fg else Bg), rest))
  {
    var codes := ColorCodes(c, ct) + rest;
    match c
    case Indexed(i) =>
      assert codes[3..] == rest;
    case RGB(r, g, b) =>
      assert codes[5..] == rest;
    case _ =>
      assert codes[1..] == rest;
      assert NamedColor(ToNum(c) - 30) == c by {
        match c
        case Black => case Red => case Green => case Yellow =>
        case Blue => case Magenta => case Cyan => case White =>
      }
  }

  /** An absent channel reads nothing when the next code does not start a
      selection for that channel. */
  lemma DecodeAbsentChannel(rest: seq<nat>, fg: bool)
    requires |rest| > 0 ==> var base := if fg then 30 else 40;
      !(base <= rest[0] <= base + 8) && !(base + 60 <= rest[0] < base + 68)
    ensures DecodeChannel(rest, fg) == Some((None, rest))
  {
  }

  /** The first code of a colour selection on a background channel. */
  lemma BackgroundStart(c: Color, ct: ClrType)
    requires !IsForeground(ct)
    ensures var n := ColorCodes(c, ct)[0]; 40 <= n <= 48 || 100 <= n <= 107
  {
  }

  /** Decoding the compiled codes of a canonical style gives the style
      back, with the modifiers in order and duplicates kept. */
  lemma DecodeStyleCodes(s: Style)
    requires Canonical(s)
    ensures DecodeCodes(StyleCodes(s)) == Some(Canon(s))
  {
    var fgc, bgc, msc := ChannelCodes(s.fg), ChannelCodes(s.bg), ModifierCodes(s.mdfs);
    var rest := bgc + msc;
    assert StyleCodes(s) == fgc + rest;
    if s.fg.Some? {
      DecodePresentChannel(s.fg.value.0, s.fg.value.1, true, rest);
    } else {
      assert fgc + rest == rest;
      if |bgc| > 0 {
        BackgroundStart(s.bg.value.0, s.bg.value.1);
        assert rest[0] == bgc[0];
      } else if |msc| > 0 {
        assert rest[0] == ModifierCode(s.mdfs[0]);
      }
      DecodeAbsentChannel(rest, true);
    }
    assert DecodeChannel(StyleCodes(s), true) == Some((CanonChannel(s.fg, Fg), rest));
    if s.bg.Some? {
      DecodePresentChannel(s.bg.value.0, s.bg.value.1, false, msc);
    } else {
      assert rest == msc;
      assert |msc| > 0 ==> msc[0] == ModifierCode(s.mdfs[0]);
      DecodeAbsentChannel(msc, false);
    }
    assert DecodeChannel(rest, false) == Some((CanonChannel(s.bg, Bg), msc));
    DecodeModifierCodes(s.mdfs);
  }

  /** The parameter list `Collect` writes for a canonical style decodes to
      that style. */
  lemma CollectDecodes(s: Style)
    requires Canonical(s)
    ensures DecodeSgr(Collect(s)) == Some(Canon(s))
  {
    ParseParamsJoinCodes(StyleCodes(s));
    DecodeStyleCodes(s);
  }

  /* ---------------------------------------------------------------- */
  /* Styled texts                                                     */
  /* ---------------------------------------------------------------- */

  function IndexOf(s: string, c: char): (r: Option<nat>)
    ensures r.Some? ==> r.value < |s| && s[r.value] == c && c !in s[..r.value]
    ensures r.None? ==> c !in s
  {
    if |s| == 0 then None
    else if s[0] == c then Some(0)
    else
      var k :- IndexOf(s[1..], c);
      assert s[..k + 1] == [s[0]] + s[1..][..k];
      Some(k + 1)
  }

  /** Splits `ESC [ params m text ESC [ 0 m` into its non-empty parameter
      list and non-empty text; anything else is not a styled text. */
  function Unwrap(w: string): Option<(string, string)>
  {
    if |w| < 9 || w[..2] != [ESC, '['] || w[|w| - 4..] != RESET then None
    else
      var body := w[2..|w| - 4];
      var k :- IndexOf(body, 'm');
      if k == 0 || k + 1 == |body| then None else Some((body[..k], body[k + 1..]))
  }

  lemma IndexOfPrefix(a: string, c: char, b: string)
    requires c !in a
    ensures IndexOf(a + [c] + b, c) == Some(|a|)
  {
    var s := a + [c] + b;
    var r := IndexOf(s, c);
    assert s[|a|] == c;
    assert r.Some?;
  }

  /** `Wrap` adds exactly one control sequence and one reset, and both can
      be taken off again, whatever the text contains. */
  lemma UnwrapWrap(text: string, formats: string)
    requires |text| > 0 && |formats| > 0
    requires 'm' !in formats
    ensures Unwrap(Wrap(text, formats)) == Some((formats, text))
  {
    var w := Wrap(text, formats);
    var body := w[2..|w| - 4];
    assert body == formats + ['m'] + text;
    IndexOfPrefix(formats, 'm', text);
    assert body[..|formats|] == formats;
    assert body[|formats| + 1..] == text;
  }

  /** Reads a styled text back into the style and the text. */
  function DecodeStyled(w: string): Option<(Style, string)>
  {
    var pt :- Unwrap(w);
    var s :- DecodeSgr(pt.0);
    Some((s, pt.1))
  }

  /** Applying a non-empty canonical style to a non-empty text can be
      undone: the text comes back, and the style up to the bright flag of
      indexed and RGB colours. */
  lemma ApplyDecodes(s: Style, text: string)
    requires Canonical(s) && !IsEmpty(s) && |text| > 0
    ensures DecodeStyled(Apply(s, text)) == Some((Canon(s), text))
  {
    var f := Collect(s);
    assert 'm' !in f;
    UnwrapWrap(text, f);
    CollectDecodes(s);
  }
}

=== FILE: spec_printer.dfy ===
/** A printer for style specs, the inverse of the style grammar: every
    style the grammar can produce has a spec that parses back to it. */
module SpecPrinter {
  import opened Wrappers
  import opened Text
  import opened Numbers
  import opened Styles
  import opened Parser

  /** The one-letter alias of a named hue. */
  function AliasChar(c: Color): (ch: char)
    requires IsNamed(c)
    ensures ColorFromChar(ch) == Some(c)
    ensures 'a' <= ch <= 'z' && !IsDigit(ch)
  {
    match c
    case Black => 'k'
    case Red => 'r'
    case Green => 'g'
    case Yellow => 'y'
    case Blue => 'b'
    case Magenta => 'm'
    case Cyan => 'c'
    case White => 'w'
  }

  /** The characters printed specs are made of. */
  predicate SpecChar(ch: char) {
    IsDigit(ch) || 'a' <= ch <= 'z' || ch == '#'
  }

  predicate SpecChars(s: string) {
    forall i :: 0 <= i < |s| ==> SpecChar(s[i])
  }

  lemma SpecCharsShape(s: string)
    requires SpecChars(s)
    ensures NoWhitespace(s) && IsLower(s)
  {
  }

  lemma SpecCharsConcat(a: string, b: string)
    requires SpecChars(a) && SpecChars(b)
    ensures SpecChars(a + b)
  {
  }

  /** A colour token: the alias of a named hue, the decimal index of a
      palette colour, or six hex digits with the mode's marker. */
  function ColorSpec(c: Color, mode: ParsingMode): (r: string)
    ensures |r| > 0 && SpecChars(r)
  {
    match c
    case Indexed(i) =>
      var d := Decimal(i);
      assert forall k :: 0 <= k < |d| ==> DigitValue(d[k], 10).Some?;
      d
    case RGB(r, g, b) =>
      var body := Hex2(r) + Hex2(g) + Hex2(b);
      SpecCharsConcat(Hex2(r), Hex2(g));
      SpecCharsConcat(Hex2(r) + Hex2(g), Hex2(b));
      SpecCharsConcat("#", body);
      SpecCharsConcat(body, "#");
      Marked(body, mode)
    case _ => [AliasChar(c)]
  }

  /** The alias letter of a modifier other than `Reset`. */
  function ModifierChar(m: Modifier): (ch: char)
    requires m != Reset
    ensures ModifierFromChar(ch) == Some(m)
    ensures 'a' <= ch <= 'z'
  {
    match m
    case Bold => 'b'
    case Dim => 'd'
    case Italic => 'i'
    case Underline => 'u'
    case Blink => 'k'
    case Invert => 'v'
    case Hide => 'h'
    case Strike => 's'
    case DoubleUL => 'l'
    case Overline => 'o'
  }

  function ModifierSpec(ms: seq<Modifier>): (r: string)
    requires NoReset(ms)
    ensures |r| == |ms|
    ensures forall i :: 0 <= i < |ms| ==> ModifierFromChar(r[i]) == Some(ms[i]) && 'a' <= r[i] <= 'z'
  {
    seq(|ms|, i requires 0 <= i < |ms| => ModifierChar(ms[i]))
  }

  /** The words of a spec for `s`: the foreground pair, the background
      pair, then the modifier pair, each only when present. */
  function SpecWords(s: Style, mode: ParsingMode): (words: seq<string>)
    requires WellFormed(s)
    ensures |words| <= 6 && |words| % 2 == 0
  {
    FgWords(s.fg, mode) + BgWords(s.bg, mode) + ModifierWords(s.mdfs)
  }

  function FgWords(p: Option<(Color, ClrType)>, mode: ParsingMode): (words: seq<string>)
    ensures |words| == if p.Some? then 2 else 0
  {
    match p
    case None => []
    case Some((c, ct)) => [if ct == FgBright then "fb" else "f", ColorSpec(c, mode)]
  }

  function BgWords(p: Option<(Color, ClrType)>, mode: ParsingMode): (words: seq<string>)
    ensures |words| == if p.Some? then 2 else 0
  {
    match p
    case None => []
    case Some((c, ct)) => [if ct == BgBright then "bb" else "b", ColorSpec(c, mode)]
  }

  function ModifierWords(ms: seq<Modifier>): (words: seq<string>)
    requires NoReset(ms)
    ensures |words| == if |ms| > 0 then 2 else 0
  {
    if |ms| == 0 then [] else ["m", ModifierSpec(ms)]
  }

  /** The spec: the words joined by single spaces. */
  function PrintSpec(s: Style, mode: ParsingMode): (r: string)
    requires WellFormed(s)
  {
    Join(SpecWords(s, mode), " ")
  }

  /* ---------------------------------------------------------------- */
  /* Round trips                                                      */
  /* ---------------------------------------------------------------- */

  /** Every colour has a token that reads back as that colour. */
  lemma ColorSpecParses(c: Color, mode: ParsingMode)
    ensures ParseColor(ColorSpec(c, mode), mode) == Ok(c)
  {
    match c
    case Indexed(i) => IndexSpecParses(i, mode);
    case RGB(r, g, b) => RgbSpecParses(r, g, b, mode);
    case _ =>
  }

  lemma IndexSpecParses(i: u8, mode: ParsingMode)
    ensures ParseColor(Decimal(i), mode) == Ok(Indexed(i))
  {
    var d := ColorSpec(Indexed(i), mode);
    SpecCharsShape(d);
    ToLowerOfLower(d);
    DecimalParses(i);
    ParseColorIndex(d, mode);
  }

  lemma RgbSpecParses(r: u8, g: u8, b: u8, mode: ParsingMode)
    ensures ParseColor(Marked(Hex2(r) + Hex2(g) + Hex2(b), mode), mode) == Ok(RGB(r, g, b))
  {
    var spec := ColorSpec(RGB(r, g, b), mode);
    var body := Hex2(r) + Hex2(g) + Hex2(b);
    SpecCharsShape(spec);
    ToLowerOfLower(spec);
    ByHex(spec, mode);
    assert HexBody(spec, mode) == Some(body);
    assert body[0..2] == Hex2(r) && body[2..4] == Hex2(g) && body[4..6] == Hex2(b);
    Hex2Parses(r);
    Hex2Parses(g);
    Hex2Parses(b);
  }

  /** Every modifier list without `Reset` has a token that reads back as it. */
  lemma ModifierSpecParses(ms: seq<Modifier>)
    requires NoReset(ms)
    ensures ParseModifiers(ModifierSpec(ms)) == Ok(ms)
  {
    var r := ParseModifiers(ModifierSpec(ms));
    assert r.Ok?;
    assert forall i :: 0 <= i < |ms| ==> r.value[i] == ms[i];
    assert r.value == ms;
  }

  /** The fold's step on a one-pair list. */
  lemma FoldOnePair(s: Style, flag: string, value: string, mode: ParsingMode)
    ensures FoldPairs(s, [flag, value], PairStep(mode)) == ApplyPair(s, flag, value, mode)
  {
    assert [flag, value][2..] == [];
  }

  /** The words of one channel (or of the modifiers) fold to the style that
      has that part set. */
  lemma FoldPart(s: Style, words: seq<string>, next: Style, mode: ParsingMode)
    requires |words| == 0 || |words| == 2
    requires |words| == 0 ==> next == s
    requires |words| == 2 ==> ApplyPair(s, words[0], words[1], mode) == Ok(next)
    ensures FoldPairs(s, words, PairStep(mode)) == Ok(next)
  {
    if |words| == 2 {
      FoldOnePair(s, words[0], words[1], mode);
      assert words == [words[0], words[1]];
    }
  }

  lemma FgPart(p: Option<(Color, ClrType)>, mode: ParsingMode)
    requires p.Some? ==> IsForeground(p.value.1)
    ensures FoldPairs(NewStyle, FgWords(p, mode), PairStep(mode)) == Ok(Style(p, None, []))
  {
    var words := FgWords(p, mode);
    if p.Some? {
      assert ApplyPair(NewStyle, words[0], words[1], mode) == Ok(Style(p, None, [])) by {
        assert ParamOf(words[0]) == Some(if p.value.1 == FgBright then ParamFgBright else ParamFg);
        ColorSpecParses(p.value.0, mode);
      }
    }
    FoldPart(NewStyle, words, Style(p, None, []), mode);
  }

  lemma BgPart(fg: Option<(Color, ClrType)>, p: Option<(Color, ClrType)>, mode: ParsingMode)
    requires p.Some? ==> !IsForeground(p.value.1)
    ensures FoldPairs(Style(fg, None, []), BgWords(p, mode), PairStep(mode)) == Ok(Style(fg, p, []))
  {
    var words := BgWords(p, mode);
    if p.Some? {
      assert ApplyPair(Style(fg, None, []), words[0], words[1], mode) == Ok(Style(fg, p, [])) by {
        assert ParamOf(words[0]) == Some(if p.value.1 == BgBright then ParamBgBright else ParamBg);
        ColorSpecParses(p.value.0, mode);
      }
    }
    FoldPart(Style(fg, None, []), words, Style(fg, p, []), mode);
  }

  lemma ModifierPart(fg: Option<(Color, ClrType)>, bg: Option<(Color, ClrType)>, ms: seq<Modifier>, mode: ParsingMode)
    requires NoReset(ms)
    ensures FoldPairs(Style(fg, bg, []), ModifierWords(ms), PairStep(mode)) == Ok(Style(fg, bg, ms))
  {
    if |ms| > 0 {
      ModifierSpecParses(ms);
      assert [] + ms == ms;
      assert ParamOf("m") == Some(ParamModifiers);
    }
    FoldPart(Style(fg, bg, []), ModifierWords(ms), Style(fg, bg, ms), mode);
  }

  /** The words fold back to the style they were printed from. */
  lemma FoldSpecWords(s: Style, mode: ParsingMode)
    requires WellFormed(s)
    ensures FoldPairs(NewStyle, SpecWords(s, mode), PairStep(mode)) == Ok(s)
  {
    var fw, bw, mw := FgWords(s.fg, mode), BgWords(s.bg, mode), ModifierWords(s.mdfs);
    assert |fw| % 2 == 0 && |bw| % 2 == 0 && |mw| % 2 == 0;
    FgPart(s.fg, mode);
    BgPart(s.fg, s.bg, mode);
    ModifierPart(s.fg, s.bg, s.mdfs, mode);
    FoldThree(NewStyle, Style(s.fg, None, []), Style(s.fg, s.bg, []), s, fw, bw, mw, PairStep(mode));
  }

  /** Three folds in a row are one fold over the three word lists. */
  lemma FoldThree(s0: Style, s1: Style, s2: Style, s3: Style, a: seq<string>, b: seq<string>, c: seq<string>,
                  step: (Style, string, string) -> Result<Style, ParsingError>)
    requires |a| % 2 == 0 && |b| % 2 == 0 && |c| % 2 == 0
    requires FoldPairs(s0, a, step) == Ok(s1)
    requires FoldPairs(s1, b, step) == Ok(s2)
    requires FoldPairs(s2, c, step) == Ok(s3)
    ensures FoldPairs(s0, a + b + c, step) == Ok(s3)
  {
    PairsCompose(s0, a, b + c, step);
    PairsCompose(s1, b, c, step);
    assert a + b + c == a + (b + c);
  }

  /** The words are non-empty and free of whitespace. */
  lemma SpecWordsShape(s: Style, mode: ParsingMode)
    requires WellFormed(s)
    ensures forall k :: 0 <= k < |SpecWords(s, mode)| ==> |SpecWords(s, mode)[k]| > 0 && NoWhitespace(SpecWords(s, mode)[k])
  {
  }

  /** Printing a style and parsing the spec gives the style back, for
      every style the grammar can produce. */
  lemma PrintSpecParses(s: Style, mode: ParsingMode)
    requires WellFormed(s)
    ensures ParseStyle(PrintSpec(s, mode), mode) == Ok(s)
  {
    SpecWordsShape(s, mode);
    SplitWhitespaceJoin(SpecWords(s, mode));
    FoldSpecWords(s, mode);
  }

  /** Exactly the styles without a reset and with each colour on its own
      side's channel are the results of the grammar. */
  lemma GrammarImage(s: Style, mode: ParsingMode)
    ensures WellFormed(s) <==> exists spec :: ParseStyle(spec, mode) == Ok(s)
  {
    if WellFormed(s) {
      PrintSpecParses(s, mode);
    }
  }
}

=== FILE: styles.dfy ===
/** The style vocabulary and the escape compiler of `core/src/style.rs`:
    colour channels, colours, modifiers, the `Style` value with its
    setters, and the compilation of a style into the parameter list of an
    SGR control sequence (`ESC [ <params> m`, ECMA-48 section 8.3.117,
    in the CSI form of ECMA-48 section 5.4) wrapped around a text and
    closed by the reset sequence `ESC [ 0 m`. */
module Styles {
  import opened Wrappers
  import opened Text
  import opened Numbers

  const ESC: char := 27 as char

  /** The reset sequence that ends every styled text. */
  const RESET: string := [ESC, '[', '0', 'm']

  /* ---------------------------------------------------------------- */
  /* Colour channels                                                  */
  /* ---------------------------------------------------------------- */

  /** Colour channel; the offset is added to a named hue's base code. */
  datatype ClrType = Fg | Bg | FgBright | BgBright

  function Offset(ct: ClrType): (n: nat)
    ensures n in {0, 10, 60, 70}
  {
    match ct
    case Fg => 0
    case Bg => 10
    case FgBright => 60
    case BgBright => 70
  }

  predicate IsForeground(ct: ClrType) {
    ct == Fg || ct == FgBright
  }

  /** The extended-colour introducer: 38 for a foreground channel, 48 for a
      background one. */
  function GetCsi(ct: ClrType): (n: nat)
    ensures IsForeground(ct) <==> n == 38
    ensures !IsForeground(ct) <==> n == 48
  {
    match ct
    case Fg => 38
    case FgBright => 38
    case Bg => 48
    case BgBright => 48
  }

  /* ---------------------------------------------------------------- */
  /* Colours                                                          */
  /* ---------------------------------------------------------------- */

  datatype Color =
    | Black | Red | Green | Yellow | Blue | Magenta | Cyan | White
    | Indexed(index: u8)
    | RGB(r: u8, g: u8, b: u8)

  /** `Color::default()`. */
  const DefaultColor: Color := White

  predicate IsNamed(c: Color) {
    !c.Indexed? && !c.RGB?
  }

  /** The base code of a named hue (30 to 37); 0 for the other colours. */
  function ToNum(c: Color): (n: u8)
    ensures IsNamed(c) <==> 30 <= n <= 37
    ensures !IsNamed(c) <==> n == 0
  {
    match c
    case Black => 30
    case Red => 31
    case Green => 32
    case Yellow => 33
    case Blue => 34
    case Magenta => 35
    case Cyan => 36
    case White => 37
    case _ => 0
  }

  /** The one-letter colour aliases. */
  function ColorFromChar(ch: char): (r: Option<Color>)
    ensures r.Some? ==> IsNamed(r.value)
    ensures r.Some? <==> ch in "rgbcmykw"
  {
    match ch
    case 'r' => Some(Red)
    case 'g' => Some(Green)
    case 'b' => Some(Blue)
    case 'c' => Some(Cyan)
    case 'm' => Some(Magenta)
    case 'y' => Some(Yellow)
    case 'k' => Some(Black)
    case 'w' => Some(White)
    case _ => None
  }

  /** The SGR parameters selecting colour `c` on channel `ct`, as numbers. */
  function ColorCodes(c: Color, ct: ClrType): (codes: seq<nat>)
    ensures |codes| > 0
    ensures IsNamed(c) ==> |codes| == 1
    ensures !IsNamed(c) ==> codes[0] == GetCsi(ct)
  {
    match c
    case Indexed(i) => [GetCsi(ct), 5, i]
    case RGB(r, g, b) => [GetCsi(ct), 2, r, g, b]
    case _ => [ToNum(c) + Offset(ct)]
  }

  /** `Color::format`: the colour's SGR parameters joined with `;`, that is
      `C;5;i` for an indexed colour, `C;2;r;g;b` for an RGB colour and the
      base code plus the channel offset for a named hue, where `C` is
      `GetCsi(ct)`. */
  function Format(c: Color, ct: ClrType): (r: string)
    ensures |r| > 0 && IsParams(r)
    ensures IsNamed(c) ==> r == Decimal(ToNum(c) + Offset(ct))
    ensures c.Indexed? ==> r == Decimal(GetCsi(ct)) + ";5;" + Decimal(c.index)
    ensures c.RGB? ==> r == Decimal(GetCsi(ct)) + ";2;" + Decimal(c.r) + ";" + Decimal(c.g) + ";" + Decimal(c.b)
  {
    JoinCodesParams(ColorCodes(c, ct));
    IndexLayout(GetCsi(ct), if c.Indexed? then c.index else 0);
    RgbLayout(GetCsi(ct), if c.RGB? then c.r else 0, if c.RGB? then c.g else 0, if c.RGB? then c.b else 0);
    JoinCodes(ColorCodes(c, ct))
  }

  /** A named hue on any channel lands in 30-37, 40-47, 90-97 or 100-107,
      so the source's 8-bit addition of base code and offset never
      overflows. */
  lemma NamedCodeRange(c: Color, ct: ClrType)
    requires IsNamed(c)
    ensures var n := ColorCodes(c, ct)[0];
      n < 256
      && (ct == Fg ==> 30 <= n <= 37)
      && (ct == Bg ==> 40 <= n <= 47)
      && (ct == FgBright ==> 90 <= n <= 97)
      && (ct == BgBright ==> 100 <= n <= 107)
  {
  }

  /* ---------------------------------------------------------------- */
  /* Modifiers                                                        */
  /* ---------------------------------------------------------------- */

  datatype Modifier =
    Reset | Bold | Dim | Italic | Underline | Blink | Invert | Hide | Strike | DoubleUL | Overline

  /** The fixed SGR code of each modifier. */
  function ModifierCode(m: Modifier): (n: nat)
    ensures n in {0, 1, 2, 3, 4, 5, 7, 8, 9, 21, 53}
  {
    match m
    case Reset => 0
    case Bold => 1
    case Dim => 2
    case Italic => 3
    case Underline => 4
    case Blink => 5
    case Invert => 7
    case Hide => 8
    case Strike => 9
    case DoubleUL => 21
    case Overline => 53
  }

  /** Distinct modifiers have distinct codes, so a code list determines the
      modifier list. */
  lemma ModifierCodeInjective(m1: Modifier, m2: Modifier)
    ensures ModifierCode(m1) == ModifierCode(m2) ==> m1 == m2
  {
  }

  /** The one-letter modifier aliases (case-sensitive); `Reset` has none. */
  function ModifierFromChar(ch: char): (r: Option<Modifier>)
    ensures r.Some? ==> r.value != Reset
    ensures r.Some? <==> ch in "bdiukvhslo"
  {
    match ch
    case 'b' => Some(Bold)
    case 'd' => Some(Dim)
    case 'i' => Some(Italic)
    case 'u' => Some(Underline)
    case 'k' => Some(Blink)
    case 'v' => Some(Invert)
    case 'h' => Some(Hide)
    case 's' => Some(Strike)
    case 'l' => Some(DoubleUL)
    case 'o' => Some(Overline)
    case _ => None
  }

  /* ---------------------------------------------------------------- */
  /* Styles and setters                                               */
  /* ---------------------------------------------------------------- */

  datatype Style = Style(fg: Option<(Color, ClrType)>, bg: Option<(Color, ClrType)>, mdfs: seq<Modifier>)

  /** `Style::new()`: no colours and no modifiers. */
  const NewStyle: Style := Style(None, None, [])

  /** Sets the foreground colour, keeping an existing channel (plain
      foreground when there was none). */
  function SetFg(s: Style, color: Color): (r: Style)
    ensures r.bg == s.bg && r.mdfs == s.mdfs
    ensures r.fg.Some? && r.fg.value.0 == color
    ensures r.fg.value.1 == (if s.fg.Some? then s.fg.value.1 else Fg)
  {
    match s.fg
    case Some((_, ct)) => s.(fg := Some((color, ct)))
    case None => s.(fg := Some((color, Fg)))
  }

  /** Sets the background colour, keeping an existing channel (plain
      background when there was none). */
  function SetBg(s: Style, color: Color): (r: Style)
    ensures r.fg == s.fg && r.mdfs == s.mdfs
    ensures r.bg.Some? && r.bg.value.0 == color
    ensures r.bg.value.1 == (if s.bg.Some? then s.bg.value.1 else Bg)
  {
    match s.bg
    case Some((_, ct)) => s.(bg := Some((color, ct)))
    case None => s.(bg := Some((color, Bg)))
  }

  function FgRgb(s: Style, r: u8, g: u8, b: u8): (res: Style)
    ensures res.bg == s.bg && res.mdfs == s.mdfs
    ensures res.fg == Some((RGB(r, g, b), if s.fg.Some? then s.fg.value.1 else Fg))
  {
    match s.fg
    case Some((_, ct)) => s.(fg := Some((RGB(r, g, b), ct)))
    case None => s.(fg := Some((RGB(r, g, b), Fg)))
  }

  function BgRgb(s: Style, r: u8, g: u8, b: u8): (res: Style)
    ensures res.fg == s.fg && res.mdfs == s.mdfs
    ensures res.bg == Some((RGB(r, g, b), if s.bg.Some? then s.bg.value.1 else Bg))
  {
    match s.bg
    case Some((_, ct)) => s.(bg := Some((RGB(r, g, b), ct)))
    case None => s.(bg := Some((RGB(r, g, b), Bg)))
  }

  /** Sets an indexed foreground colour on the plain foreground channel,
      dropping any brightening. */
  function FgIndex(s: Style, i: u8): (r: Style)
    ensures r.bg == s.bg && r.mdfs == s.mdfs
    ensures r.fg == Some((Indexed(i), Fg))
  {
    s.(fg := Some((Indexed(i), Fg)))
  }

  /** Sets an indexed background colour on the plain background channel,
      dropping any brightening. */
  function BgIndex(s: Style, i: u8): (r: Style)
    ensures r.fg == s.fg && r.mdfs == s.mdfs
    ensures r.bg == Some((Indexed(i), Bg))
  {
    s.(bg := Some((Indexed(i), Bg)))
  }

  /** Moves the foreground to the bright channel, keeping its colour
      (white when there was none). */
  function FgBrighten(s: Style): (r: Style)
    ensures r.bg == s.bg && r.mdfs == s.mdfs
    ensures r.fg.Some? && r.fg.value.1 == FgBright
    ensures r.fg.value.0 == (if s.fg.Some? then s.fg.value.0 else DefaultColor)
  {
    match s.fg
    case Some((clr, _)) => s.(fg := Some((clr, FgBright)))
    case None => s.(fg := Some((DefaultColor, FgBright)))
  }

  /** Moves the background to the bright channel, keeping its colour
      (white when there was none). */
  function BgBrighten(s: Style): (r: Style)
    ensures r.fg == s.fg && r.mdfs == s.mdfs
    ensures r.bg.Some? && r.bg.value.1 == BgBright
    ensures r.bg.value.0 == (if s.bg.Some? then s.bg.value.0 else DefaultColor)
  {
    match s.bg
    case Some((clr, _)) => s.(bg := Some((clr, BgBright)))
    case None => s.(bg := Some((DefaultColor, BgBright)))
  }

  /** Appends a modifier; duplicates are kept. */
  function InsertModifier(s: Style, m: Modifier): (r: Style)
    ensures r.fg == s.fg && r.bg == s.bg
    ensures |r.mdfs| == |s.mdfs| + 1 && r.mdfs[..|s.mdfs|] == s.mdfs && r.mdfs[|s.mdfs|] == m
  {
    s.(mdfs := s.mdfs + [m])
  }

  /** Brightening and setting the colour commute: both orders give the
      colour on the bright channel. */
  lemma BrightenCommutes(s: Style, c: Color)
    ensures FgBrighten(SetFg(s, c)) == SetFg(FgBrighten(s), c)
    ensures FgBrighten(SetFg(s, c)).fg == Some((c, FgBright))
    ensures BgBrighten(SetBg(s, c)) == SetBg(BgBrighten(s), c)
    ensures BgBrighten(SetBg(s, c)).bg == Some((c, BgBright))
  {
  }

  /** Brightening survives a later plain colour setter, but not an indexed
      one. */
  lemma BrightenIsSticky(s: Style, c: Color, i: u8)
    ensures SetFg(FgBrighten(s), c).fg == Some((c, FgBright))
    ensures SetBg(BgBrighten(s), c).bg == Some((c, BgBright))
    ensures FgIndex(FgBrighten(s), i).fg == Some((Indexed(i), Fg))
    ensures BgIndex(BgBrighten(s), i).bg == Some((Indexed(i), Bg))
  {
  }

  /** A later colour replaces an earlier one; the RGB setters are the plain
      setters applied to an RGB colour; brightening twice is brightening once. */
  lemma SetterAlgebra(s: Style, c1: Color, c2: Color, r: u8, g: u8, b: u8)
    ensures SetFg(SetFg(s, c1), c2) == SetFg(s, c2)
    ensures SetBg(SetBg(s, c1), c2) == SetBg(s, c2)
    ensures FgRgb(s, r, g, b) == SetFg(s, RGB(r, g, b))
    ensures BgRgb(s, r, g, b) == SetBg(s, RGB(r, g, b))
    ensures FgBrighten(FgBrighten(s)) == FgBrighten(s)
    ensures BgBrighten(BgBrighten(s)) == BgBrighten(s)
  {
  }

  /** The styles the setters and the grammars produce: the foreground on a foreground
      channel and the background on a background channel. */
  predicate Canonical(s: Style) {
    && (s.fg.Some? ==> IsForeground(s.fg.value.1))
    && (s.bg.Some? ==> !IsForeground(s.bg.value.1))
  }

  /* ---------------------------------------------------------------- */
  /* Compilation                                                      */
  /* ---------------------------------------------------------------- */

  /** `Style::is_empty`: the style has no effect on text. */
  predicate IsEmpty(s: Style) {
    s.fg.None? && s.bg.None? && |s.mdfs| == 0
  }

  /** Only decimal digits and `;`: the shape of an SGR parameter list. */
  predicate IsParams(s: string) {
    forall i :: 0 <= i < |s| ==> IsDigit(s[i]) || s[i] == ';'
  }

  /** Decimal renderings of the codes, joined with `;`. */
  function JoinCodes(codes: seq<nat>): (r: string)
    ensures |codes| > 0 ==> |r| > 0
  {
    if |codes| == 0 then ""
    else if |codes| == 1 then Decimal(codes[0])
    else Decimal(codes[0]) + ";" + JoinCodes(codes[1..])
  }

  /** A code in front of a non-empty list is joined with a `;`. */
  lemma JoinCons(x: nat, rest: seq<nat>)
    requires |rest| > 0
    ensures JoinCodes([x] + rest) == Decimal(x) + ";" + JoinCodes(rest)
  {
    assert ([x] + rest)[1..] == rest;
  }

  /** Five codes are joined as their decimals with `;` between. */
  lemma JoinFive(a: nat, b: nat, c: nat, d: nat, e: nat)
    ensures JoinCodes([a, b, c, d, e])
         == Decimal(a) + ";" + (Decimal(b) + ";" + (Decimal(c) + ";" + (Decimal(d) + ";" + Decimal(e))))
  {
    var j2 := Decimal(d) + ";" + Decimal(e);
    assert JoinCodes([d, e]) == j2 by {
      JoinCons(d, [e]);
      assert [d] + [e] == [d, e];
    }
    var j3 := Decimal(c) + ";" + j2;
    assert JoinCodes([c, d, e]) == j3 by {
      JoinCons(c, [d, e]);
      assert [c] + [d, e] == [c, d, e];
    }
    var j4 := Decimal(b) + ";" + j3;
    assert JoinCodes([b, c, d, e]) == j4 by {
      JoinCons(b, [c, d, e]);
      assert [b] + [c, d, e] == [b, c, d, e];
    }
    JoinCons(a, [b, c, d, e]);
    assert [a] + [b, c, d, e] == [a, b, c, d, e];
  }

  /** Three codes are joined as their decimals with `;` between. */
  lemma JoinThree(a: nat, b: nat, c: nat)
    ensures JoinCodes([a, b, c]) == Decimal(a) + ";" + (Decimal(b) + ";" + Decimal(c))
  {
    var j2 := Decimal(b) + ";" + Decimal(c);
    assert JoinCodes([b, c]) == j2 by {
      JoinCons(b, [c]);
      assert [b] + [c] == [b, c];
    }
    JoinCons(a, [b, c]);
    assert [a] + [b, c] == [a, b, c];
  }

  /** The parameters of an indexed colour: `C;5;i`. */
  lemma IndexLayout(csi: nat, i: nat)
    ensures JoinCodes([csi, 5, i]) == Decimal(csi) + ";5;" + Decimal(i)
  {
    var dc, d5, di := Decimal(csi), Decimal(5), Decimal(i);
    assert JoinCodes([csi, 5, i]) == dc + ";" + (d5 + ";" + di) by {
      JoinThree(csi, 5, i);
    }
    assert d5 == "5";
    assert dc + ";" + ("5" + ";" + di) == dc + ";5;" + di;
  }

  /** The parameters of an RGB colour: `C;2;r;g;b`. */
  lemma RgbLayout(csi: nat, r: nat, g: nat, b: nat)
    ensures JoinCodes([csi, 2, r, g, b]) == Decimal(csi) + ";2;" + Decimal(r) + ";" + Decimal(g) + ";" + Decimal(b)
  {
    var dc, d2, dr, dg, db := Decimal(csi), Decimal(2), Decimal(r), Decimal(g), Decimal(b);
    assert JoinCodes([csi, 2, r, g, b]) == dc + ";" + (d2 + ";" + (dr + ";" + (dg + ";" + db))) by {
      JoinFive(csi, 2, r, g, b);
    }
    assert d2 == "2";
    RegroupJoin(dc, d2, dr, dg, db, ";");
    assert ";" + "2" + ";" == ";2;";
  }

  /** Joining with a separator reads the same grouped either way. */
  lemma RegroupJoin(a: string, m: string, x: string, y: string, z: string, sep: string)
    ensures a + sep + (m + sep + (x + sep + (y + sep + z))) == a + (sep + m + sep) + x + sep + y + sep + z
  {
  }

  /** Decimal codes joined with `;` form an SGR parameter list. */
  lemma {:induction false} JoinCodesParams(codes: seq<nat>)
    ensures IsParams(JoinCodes(codes))
  {
    if |codes| > 1 {
      JoinCodesParams(codes[1..]);
    }
  }

  function ChannelCodes(p: Option<(Color, ClrType)>): seq<nat>
  {
    if p.Some? then ColorCodes(p.value.0, p.value.1) else []
  }

  function ModifierCodes(ms: seq<Modifier>): (codes: seq<nat>)
    ensures |codes| == |ms|
    ensures forall k :: 0 <= k < |ms| ==> codes[k] == ModifierCode(ms[k])
  {
    if |ms| == 0 then [] else [ModifierCode(ms[0])] + ModifierCodes(ms[1..])
  }

  /** The SGR parameters of a style, as numbers: foreground colour,
      background colour, then each modifier's code in insertion order. */
  function StyleCodes(s: Style): (codes: seq<nat>)
    ensures |codes| == 0 <==> IsEmpty(s)
  {
    ChannelCodes(s.fg) + ChannelCodes(s.bg) + ModifierCodes(s.mdfs)
  }

  function ChannelSegments(p: Option<(Color, ClrType)>): seq<string>
  {
    if p.Some? then [Format(p.value.0, p.value.1)] else []
  }

  function ModifierSegments(ms: seq<Modifier>): seq<string>
  {
    if |ms| == 0 then [] else [Decimal(ModifierCode(ms[0]))] + ModifierSegments(ms[1..])
  }

  /** The strings `Style::collect` joins: the formatted foreground, the
      formatted background, then the decimal code of each modifier. */
  function Segments(s: Style): seq<string>
  {
    ChannelSegments(s.fg) + ChannelSegments(s.bg) + ModifierSegments(s.mdfs)
  }

  /** `Style::collect`: the SGR parameter list of the style; empty exactly
      for the empty style. */
  function Collect(s: Style): (r: string)
    ensures r == "" <==> IsEmpty(s)
    ensures IsParams(r)
    ensures r == JoinCodes(StyleCodes(s))
  {
    if IsEmpty(s) then ""
    else
      SegmentsJoin(s);
      JoinCodesParams(StyleCodes(s));
      Join(Segments(s), ";")
  }

  lemma SegmentsJoin(s: Style)
    ensures Join(Segments(s), ";") == JoinCodes(StyleCodes(s))
  {
    var fg, bg, ms := ChannelSegments(s.fg), ChannelSegments(s.bg), ModifierSegments(s.mdfs);
    var fgc, bgc, msc := ChannelCodes(s.fg), ChannelCodes(s.bg), ModifierCodes(s.mdfs);
    ModifiersJoin(s.mdfs);
    assert Join(fg, ";") == JoinCodes(fgc);
    assert Join(bg, ";") == JoinCodes(bgc);
    assert |fg| == 0 <==> |fgc| == 0;
    assert |bg| == 0 <==> |bgc| == 0;
    assert |ms| == 0 <==> |msc| == 0;
    JoinConcat(fg, bg);
    JoinCodesConcat(fgc, bgc);
    JoinConcat(fg + bg, ms);
    JoinCodesConcat(fgc + bgc, msc);
  }

  lemma {:induction false} ModifiersJoin(ms: seq<Modifier>)
    ensures |ModifierSegments(ms)| == |ms|
    ensures Join(ModifierSegments(ms), ";") == JoinCodes(ModifierCodes(ms))
  {
    if |ms| > 0 {
      ModifiersJoin(ms[1..]);
      var segs := ModifierSegments(ms);
      var codes := ModifierCodes(ms);
      assert segs[1..] == ModifierSegments(ms[1..]);
      assert codes[1..] == ModifierCodes(ms[1..]);
    }
  }

  /** Joining is compatible with concatenation when both sides contribute
      a segment (an empty side contributes nothing). */
  lemma {:induction false} JoinConcat(a: seq<string>, b: seq<string>)
    ensures Join(a + b, ";") ==
      if |a| == 0 then Join(b, ";")
      else if |b| == 0 then Join(a, ";")
      else Join(a, ";") + ";" + Join(b, ";")
  {
    if |a| == 0 {
      assert a + b == b;
    } else if |b| == 0 {
      assert a + b == a;
    } else if |a| == 1 {
      assert (a + b)[1..] == b;
    } else {
      assert (a + b)[1..] == a[1..] + b;
      JoinConcat(a[1..], b);
    }
  }

  lemma {:induction false} JoinCodesConcat(a: seq<nat>, b: seq<nat>)
    ensures JoinCodes(a + b) ==
      if |a| == 0 then JoinCodes(b)
      else if |b| == 0 then JoinCodes(a)
      else JoinCodes(a) + ";" + JoinCodes(b)
  {
    if |a| == 0 {
      assert a + b == b;
    } else if |b| == 0 {
      assert a + b == a;
    } else if |a| == 1 {
      assert (a + b)[1..] == b;
    } else {
      assert (a + b)[1..] == a[1..] + b;
      JoinCodesConcat(a[1..], b);
    }
  }

  /** `CompiledStyle`: the parameter list computed once. */
  datatype CompiledStyle = CompiledStyle(codes: string)

  function Compile(s: Style): (c: CompiledStyle)
    ensures c.codes == "" <==> IsEmpty(s)
  {
    CompiledStyle(Collect(s))
  }

  /** `csi`: the control sequence `ESC [ <formats> m`. */
  function Csi(formats: string): (r: string)
    ensures |r| == |formats| + 3
    ensures r[0] == ESC && r[1] == '[' && r[|r| - 1] == 'm' && r[2..|r| - 1] == formats
  {
    [ESC, '['] + formats + ['m']
  }

  /** `wrap`: the text unchanged when the text or the parameters are empty,
      otherwise the text between the control sequence and the reset. */
  function Wrap(text: string, formats: string): (r: string)
    ensures |text| == 0 || |formats| == 0 ==> r == text
    ensures |text| > 0 && |formats| > 0 ==>
      |r| == |formats| + |text| + 7
      && r[..|formats| + 3] == Csi(formats)
      && r[|formats| + 3..|r| - 4] == text
      && r[|r| - 4..] == RESET
  {
    if |text| == 0 || |formats| == 0 then text
    else Csi(formats) + text + RESET
  }

  /** `Stylable::style` for a `Style`. */
  function Apply(s: Style, text: string): (r: string)
    ensures r == text <==> IsEmpty(s) || |text| == 0
  {
    Wrap(text, Collect(s))
  }

  /** `Stylable::style` for a `CompiledStyle`. */
  function ApplyCompiled(c: CompiledStyle, text: string): (r: string)
    ensures r == text <==> c.codes == "" || |text| == 0
    ensures |r| >= |text|
  {
    Wrap(text, c.codes)
  }

  /** `is_empty` is exact: a style is empty precisely when styling leaves
      every text as it was. */
  lemma EmptyMeansNoEffect(s: Style)
    ensures IsEmpty(s) <==> forall t :: Apply(s, t) == t
  {
    if !IsEmpty(s) {
      assert Apply(s, "x") != "x";
    }
  }

  /** Compiling is a pure cache: it never changes what applying the style
      does to a text. */
  lemma CompileIsCache(s: Style, text: string)
    ensures ApplyCompiled(Compile(s), text) == Apply(s, text)
  {
  }

  /** Applying the empty style to any text, including an already styled
      one, adds nothing. */
  lemma EmptyStyleIsIdentity(s: Style, text: string)
    ensures Apply(NewStyle, text) == text
    ensures Apply(NewStyle, Apply(s, text)) == Apply(s, text)
  {
  }
}

=== FILE: text.dfy ===
/** Character classes and string helpers with the meaning Rust's standard
    library gives them on ASCII text: `is_ascii_digit`, `is_whitespace`,
    `is_ascii_whitespace`, `to_lowercase`, `split`, `join`,
    `split_whitespace` and `trim`. */
module Text {

  predicate IsDigit(c: char) {
    '0' <= c <= '9'
  }

  predicate IsAlphanumeric(c: char) {
    IsDigit(c) || 'a' <= c <= 'z' || 'A' <= c <= 'Z'
  }

  /** Rust's `char::is_whitespace` restricted to ASCII: tab, line feed,
      vertical tab, form feed, carriage return and space. */
  predicate IsWhitespace(c: char) {
    9 <= c as int <= 13 || c == ' '
  }

  /** Rust's `char::is_ascii_whitespace`: like `IsWhitespace` but without
      the vertical tab (11). */
  predicate IsAsciiWhitespace(c: char) {
    IsWhitespace(c) && c as int != 11
  }

  predicate NoWhitespace(s: string) {
    forall i :: 0 <= i < |s| ==> !IsWhitespace(s[i])
  }

  function LowerChar(c: char): (r: char)
    ensures 'A' <= c <= 'Z' ==> 'a' <= r <= 'z' && r as int == c as int + 32
    ensures !('A' <= c <= 'Z') ==> r == c
  {
    if 'A' <= c <= 'Z' then (c as int + 32) as char else c
  }

  /** `str::to_lowercase` on ASCII text. */
  function ToLower(s: string): (r: string)
    ensures |r| == |s|
    ensures forall i :: 0 <= i < |s| ==> r[i] == LowerChar(s[i])
  {
    seq(|s|, i requires 0 <= i < |s| => LowerChar(s[i]))
  }

  predicate IsLower(s: string) {
    forall i :: 0 <= i < |s| ==> !('A' <= s[i] <= 'Z')
  }

  lemma ToLowerIsLower(s: string)
    ensures IsLower(ToLower(s))
    ensures ToLower(ToLower(s)) == ToLower(s)
  {
  }

  lemma ToLowerOfLower(s: string)
    requires IsLower(s)
    ensures ToLower(s) == s
  {
  }

  /** Joins the parts with the separator in between (Rust's `[S]::join`);
      no parts give the empty string. */
  function Join(parts: seq<string>, sep: string): string
  {
    if |parts| == 0 then ""
    else if |parts| == 1 then parts[0]
    else parts[0] + sep + Join(parts[1..], sep)
  }

  /** Rust's `str::split` with a single-character separator: the maximal
      pieces between separators, always at least one (possibly empty). */
  function Split(s: string, sep: char): (r: seq<string>)
    ensures |r| >= 1
    ensures forall k :: 0 <= k < |r| ==> sep !in r[k]
    ensures Join(r, [sep]) == s
  {
    if |s| == 0 then [""]
    else
      var rest := Split(s[1..], sep);
      if s[0] == sep then [""] + rest
      else [[s[0]] + rest[0]] + rest[1..]
  }

  lemma {:induction false} SplitJoin(parts: seq<string>, sep: char)
    requires |parts| >= 1
    requires forall k :: 0 <= k < |parts| ==> sep !in parts[k]
    ensures Split(Join(parts, [sep]), sep) == parts
  {
    if |parts| == 1 {
      SplitNoSeparator(parts[0], sep);
    } else {
      SplitJoin(parts[1..], sep);
      SplitAfterPiece(parts[0], Join(parts[1..], [sep]), sep);
    }
  }

  lemma {:induction false} SplitNoSeparator(s: string, sep: char)
    requires sep !in s
    ensures Split(s, sep) == [s]
  {
    if |s| > 0 {
      SplitNoSeparator(s[1..], sep);
    }
  }

  lemma {:induction false} SplitAfterPiece(piece: string, rest: string, sep: char)
    requires sep !in piece
    ensures Split(piece + [sep] + rest, sep) == [piece] + Split(rest, sep)
  {
    if |piece| == 0 {
      assert piece + [sep] + rest == [sep] + rest;
      assert ([sep] + rest)[1..] == rest;
    } else {
      assert (piece + [sep] + rest)[1..] == piece[1..] + [sep] + rest;
      SplitAfterPiece(piece[1..], rest, sep);
      assert [piece[0]] + piece[1..] == piece;
    }
  }

  /** Number of leading non-whitespace characters. */
  function WordLength(s: string): (n: nat)
    ensures n <= |s|
    ensures forall i :: 0 <= i < n ==> !IsWhitespace(s[i])
    ensures n < |s| ==> IsWhitespace(s[n])
  {
    if |s| == 0 || IsWhitespace(s[0]) then 0 else 1 + WordLength(s[1..])
  }

  /** All characters of `s` that are not whitespace, in order. */
  function RemoveWhitespace(s: string): string
  {
    if |s| == 0 then ""
    else if IsWhitespace(s[0]) then RemoveWhitespace(s[1..])
    else [s[0]] + RemoveWhitespace(s[1..])
  }

  function Concat(parts: seq<string>): string
  {
    if |parts| == 0 then "" else parts[0] + Concat(parts[1..])
  }

  /** Rust's `str::split_whitespace`: the maximal runs of non-whitespace
      characters, in order. */
  function SplitWhitespace(s: string): (r: seq<string>)
    ensures forall k :: 0 <= k < |r| ==> |r[k]| > 0 && NoWhitespace(r[k])
    ensures Concat(r) == RemoveWhitespace(s)
    decreases |s|
  {
    if |s| == 0 then []
    else if IsWhitespace(s[0]) then SplitWhitespace(s[1..])
    else
      var n := WordLength(s);
      WordRemoveWhitespace(s, n);
      [s[..n]] + SplitWhitespace(s[n..])
  }

  lemma {:induction false} WordRemoveWhitespace(s: string, n: nat)
    requires n == WordLength(s)
    ensures RemoveWhitespace(s) == s[..n] + RemoveWhitespace(s[n..])
  {
    if n > 0 {
      WordRemoveWhitespace(s[1..], n - 1);
      assert s[1..][..n - 1] == s[1..n];
      assert s[1..][n - 1..] == s[n..];
      assert [s[0]] + s[1..n] == s[..n];
    }
  }

  /** A string made only of whitespace splits into no words. */
  lemma {:induction false} SplitWhitespaceBlank(s: string)
    requires forall i :: 0 <= i < |s| ==> IsWhitespace(s[i])
    ensures SplitWhitespace(s) == []
  {
    if |s| > 0 {
      SplitWhitespaceBlank(s[1..]);
    }
  }

  /** Joining non-empty, whitespace-free words with single spaces and
      splitting on whitespace gives the words back. */
  lemma {:induction false} SplitWhitespaceJoin(words: seq<string>)
    requires forall k :: 0 <= k < |words| ==> |words[k]| > 0 && NoWhitespace(words[k])
    ensures SplitWhitespace(Join(words, " ")) == words
  {
    if |words| == 1 {
      SplitWhitespaceWord(words[0], "");
      assert words[0] + "" == words[0];
    } else if |words| > 1 {
      var rest := Join(words[1..], " ");
      SplitWhitespaceJoin(words[1..]);
      SplitWhitespaceWord(words[0], " " + rest);
      assert (" " + rest)[1..] == rest;
      assert words[0] + " " + rest == words[0] + (" " + rest);
    }
  }

  /** A word followed by nothing, or by whitespace, is split off as is. */
  lemma {:induction false} SplitWhitespaceWord(w: string, rest: string)
    requires |w| > 0 && NoWhitespace(w)
    requires |rest| == 0 || IsWhitespace(rest[0])
    ensures SplitWhitespace(w + rest) == [w] + SplitWhitespace(rest)
    ensures |rest| > 0 ==> SplitWhitespace(rest) == SplitWhitespace(rest[1..])
  {
    WordLengthOf(w, rest);
    assert (w + rest)[..|w|] == w;
    assert (w + rest)[|w|..] == rest;
  }

  lemma {:induction false} WordLengthOf(w: string, rest: string)
    requires NoWhitespace(w)
    requires |rest| == 0 || IsWhitespace(rest[0])
    ensures WordLength(w + rest) == |w|
  {
    if |w| > 0 {
      assert (w + rest)[1..] == w[1..] + rest;
      WordLengthOf(w[1..], rest);
    } else {
      assert w + rest == rest;
    }
  }

  /** Number of leading whitespace characters. */
  function LeadingWhitespace(s: string): (n: nat)
    ensures n <= |s|
    ensures forall i :: 0 <= i < n ==> IsWhitespace(s[i])
    ensures n < |s| ==> !IsWhitespace(s[n])
  {
    if |s| == 0 || !IsWhitespace(s[0]) then 0 else 1 + LeadingWhitespace(s[1..])
  }

  /** Number of trailing whitespace characters. */
  function TrailingWhitespace(s: string): (n: nat)
    ensures n <= |s|
    ensures forall i :: |s| - n <= i < |s| ==> IsWhitespace(s[i])
    ensures n < |s| ==> !IsWhitespace(s[|s| - n - 1])
  {
    if |s| == 0 || !IsWhitespace(s[|s| - 1]) then 0
    else 1 + TrailingWhitespace(s[..|s| - 1])
  }

  /** Rust's `str::trim`: `s` without its leading and trailing whitespace. */
  function Trim(s: string): (r: string)
    ensures |r| <= |s|
    ensures |r| > 0 ==> !IsWhitespace(r[0]) && !IsWhitespace(r[|r| - 1])
    ensures NoWhitespace(s) ==> r == s
  {
    var t := s[LeadingWhitespace(s)..];
    t[..|t| - TrailingWhitespace(t)]
  }

}

=== FILE: token_printer.dfy ===
/** A printer for token lists, the inverse of the markup tokenizer: text
    runs are written with `<` escaped, and each tag is written so that the
    tokenizer reads back the token it came from. */
module TokenPrinter {
  import opened Wrappers
  import opened Text
  import opened Styles
  import opened Parser
  import opened Tokenizer
  import opened SpecPrinter

  /** A text run with every `<` written as `\<`. */
  function EscapeText(t: string): (r: string)
    ensures |r| >= |t|
    ensures '<' !in t ==> r == t
    decreases |t|
  {
    if |t| == 0 then ""
    else (if t[0] == '<' then "\\<" else [t[0]]) + EscapeText(t[1..])
  }

  /** The body of the tag printed for a style: a blank, which the grammar
      skips, and the style's spec. */
  function TagSpec(s: Style, mode: ParsingMode): string
    requires WellFormed(s)
  {
    " " + PrintSpec(s, mode)
  }

  function PrintToken(tok: Token, mode: ParsingMode): string
    requires tok.Fmt? ==> WellFormed(tok.style)
  {
    match tok
    case End => "</>"
    case Empty => "<>"
    case Fmt(s) => "<" + TagSpec(s, mode) + ">"
    case Text(t) => EscapeText(t)
  }

  predicate StylesOk(toks: seq<Token>) {
    forall i :: 0 <= i < |toks| && toks[i].Fmt? ==> WellFormed(toks[i].style)
  }

  function PrintTokens(toks: seq<Token>, mode: ParsingMode): string
    requires StylesOk(toks)
    decreases |toks|
  {
    if |toks| == 0 then "" else PrintToken(toks[0], mode) + PrintTokens(toks[1..], mode)
  }

  /** The token lists the printer is an inverse for: the tokenizer's own
      shape, styles the grammar can produce, and texts without backslashes
      (a backslash before a `<` cannot come out of the tokenizer). */
  predicate Printable(toks: seq<Token>) {
    && TextsOk(toks)
    && StylesOk(toks)
    && (forall i :: 0 <= i < |toks| && toks[i].Text? ==> '\\' !in toks[i].text)
  }

  /* ---------------------------------------------------------------- */
  /* Reading the printed pieces back                                  */
  /* ---------------------------------------------------------------- */

  /** An escaped run is read back as the run itself. */
  lemma {:induction false} EscapeScan(t: string, m: Scanner, mode: ParsingMode)
    requires m.state.InText? && '\\' !in t
    ensures Scan(EscapeText(t), m, mode) == Ok(m.(text := m.text + t))
    decreases |t|
  {
    if |t| == 0 {
      assert m.text + t == m.text;
    } else {
      var head := if t[0] == '<' then "\\<" else [t[0]];
      var next := m.(text := m.text + [t[0]]);
      assert Scan(head, m, mode) == Ok(next) by {
        if t[0] == '<' {
          Escape('<', m, mode);
          assert "\\<" == ['\\', '<'];
        } else {
          ScanOne(t[0], m, mode);
        }
      }
      assert EscapeText(t) == head + EscapeText(t[1..]);
      ScanAppend(head, EscapeText(t[1..]), m, mode);
      EscapeScan(t[1..], next, mode);
      assert m.text + [t[0]] + t[1..] == m.text + t;
    }
  }

  /** The words of a printed spec, joined by blanks, are tag characters. */
  lemma {:induction false} JoinTagChars(words: seq<string>)
    requires forall k :: 0 <= k < |words| ==> SpecChars(words[k])
    ensures forall i :: 0 <= i < |Join(words, " ")| ==> IsTagChar(Join(words, " ")[i])
    decreases |words|
  {
    if |words| > 1 {
      JoinTagChars(words[1..]);
      var rest := Join(words[1..], " ");
      assert Join(words, " ") == words[0] + " " + rest;
      forall i | 0 <= i < |Join(words, " ")|
        ensures IsTagChar(Join(words, " ")[i])
      {
        if i < |words[0]| {
          assert SpecChar(words[0][i]);
        } else if i > |words[0]| {
          assert Join(words, " ")[i] == rest[i - |words[0]| - 1];
        }
      }
    } else if |words| == 1 {
      assert SpecChars(words[0]);
    }
  }

  lemma SpecWordsChars(s: Style, mode: ParsingMode)
    requires WellFormed(s)
    ensures forall k :: 0 <= k < |SpecWords(s, mode)| ==> SpecChars(SpecWords(s, mode)[k])
  {
  }

  /** The printed tag body is a tag body, and reads back as the style. */
  lemma TagSpecParses(s: Style, mode: ParsingMode)
    requires WellFormed(s)
    ensures TagBody(TagSpec(s, mode))
    ensures ParseStyle(TagSpec(s, mode), mode) == Ok(s)
  {
    var p := PrintSpec(s, mode);
    SpecWordsChars(s, mode);
    JoinTagChars(SpecWords(s, mode));
    assert forall i :: 0 < i < |" " + p| ==> (" " + p)[i] == p[i - 1];
    assert (" " + p)[1..] == p;
    assert SplitWhitespace(" " + p) == SplitWhitespace(p);
    PrintSpecParses(s, mode);
  }

  /** The scanner after one printed token: a text run becomes the pending
      run, a tag flushes the pending run and is emitted. */
  function After(tok: Token, m: Scanner): (r: Scanner)
    requires tok.Text? ==> m.text == "" && tok.text != ""
    ensures r.state.InText?
    ensures Flush(r.text, r.tokens) == Flush(m.text, m.tokens) + [tok]
  {
    if tok.Text? then Scanner(InText, tok.text, m.tokens)
    else Scanner(InText, "", Flush(m.text, m.tokens) + [tok])
  }

  /** One printed token, read from a scanner that is reading text. */
  lemma ScanToken(tok: Token, m: Scanner, mode: ParsingMode)
    requires m.state.InText? && (tok.Fmt? ==> WellFormed(tok.style))
    requires tok.Text? ==> m.text == "" && |tok.text| > 0 && '\\' !in tok.text
    ensures Scan(PrintToken(tok, mode), m, mode) == Ok(After(tok, m))
  {
    match tok
    case End => EndTag(m, mode);
    case Empty => EmptyTag(m, mode);
    case Fmt(s) =>
      TagSpecParses(s, mode);
      StyledTag(m, TagSpec(s, mode), mode);
    case Text(t) =>
      EscapeScan(t, m, mode);
      assert m.text + t == t;
  }

  lemma PrintableTail(toks: seq<Token>)
    requires |toks| > 0 && Printable(toks)
    ensures Printable(toks[1..])
    ensures toks[0].Fmt? ==> WellFormed(toks[0].style)
    ensures toks[0].Text? ==> |toks[0].text| > 0 && '\\' !in toks[0].text
    ensures |toks| > 1 && toks[0].Text? ==> !toks[1].Text?
  {
    assert forall i :: 0 <= i < |toks[1..]| ==> toks[1..][i] == toks[i + 1];
  }

  /** The first printed token is read, leaving the scanner at `After`. */
  lemma ScanFirstToken(toks: seq<Token>, m: Scanner, mode: ParsingMode)
    requires m.state.InText? && Printable(toks) && |toks| > 0
    requires m.text != "" ==> !toks[0].Text?
    ensures Printable(toks[1..])
    ensures toks[0].Text? ==> m.text == "" && toks[0].text != ""
    ensures After(toks[0], m).text != "" ==> |toks| == 1 || !toks[1].Text?
    ensures Scan(PrintTokens(toks, mode), m, mode) == Scan(PrintTokens(toks[1..], mode), After(toks[0], m), mode)
  {
    PrintableTail(toks);
    ScanToken(toks[0], m, mode);
    ScanAppend(PrintToken(toks[0], mode), PrintTokens(toks[1..], mode), m, mode);
  }

  lemma ConsAssoc<T>(p: seq<T>, xs: seq<T>)
    requires |xs| > 0
    ensures p + [xs[0]] + xs[1..] == p + xs
  {
    assert xs == [xs[0]] + xs[1..];
  }

  /** The printed tokens, read from a scanner that is reading text, add
      themselves to what the scanner holds. */
  lemma {:induction false} ScanTokens(toks: seq<Token>, m: Scanner, mode: ParsingMode)
    requires m.state.InText? && Printable(toks)
    requires m.text != "" ==> |toks| == 0 || !toks[0].Text?
    ensures var r := Scan(PrintTokens(toks, mode), m, mode);
      r.Ok? && r.value.state.InText? && Flush(r.value.text, r.value.tokens) == Flush(m.text, m.tokens) + toks
    decreases |toks|
  {
    if |toks| > 0 {
      ScanFirstToken(toks, m, mode);
      ScanTokens(toks[1..], After(toks[0], m), mode);
      ConsAssoc(Flush(m.text, m.tokens), toks);
    }
  }

  /** Tokenizing printed tokens gives them back. */
  lemma PrintTokensRoundTrip(toks: seq<Token>, mode: ParsingMode)
    requires Printable(toks)
    ensures Tokenize(PrintTokens(toks, mode), mode) == Ok(toks)
  {
    ScanTokens(toks, Start, mode);
    assert Flush(Start.text, Start.tokens) + toks == toks;
  }
}

=== FILE: tokenizer.dfy ===
/** The markup tokenizer of `src/parser.rs`: a five-state machine driven by
    one character at a time that cuts markup text into text runs and tags.
    `<>` opens an unstyled node, `</>` closes the innermost node, `<spec>`
    opens a node styled by the style spec `spec`, and `\<` is a literal `<`. */
module Tokenizer {
  import opened Wrappers
  import opened Text
  import opened Styles
  import opened Parser

  datatype Token = End | Empty | Fmt(style: Style) | Text(text: string)

  /** The machine's state; `InText` is the source's `State::Text`. */
  datatype State = InText | Lt | BackSlash | MaybeClose | Tag(content: string)

  /** Why tokenizing stops: a grammar error, or a named closing tag `</x`,
      which the source leaves unimplemented (it panics). */
  datatype Failure = Parsing(error: ParsingError) | Unsupported(ch: char)

  /** The machine's variables: the state, the pending text run and the
      tokens emitted so far. */
  datatype Scanner = Scanner(state: State, text: string, tokens: seq<Token>)

  const Start: Scanner := Scanner(InText, "", [])

  /** Characters a tag body may hold after its first one. */
  predicate IsTagChar(c: char) {
    c == ',' || c == '#' || IsDigit(c) || IsAsciiWhitespace(c) || IsAlphanumeric(c)
  }

  /** Text tokens are never empty and never follow each other. */
  predicate TextsOk(toks: seq<Token>) {
    && (forall i :: 0 <= i < |toks| && toks[i].Text? ==> |toks[i].text| > 0)
    && (forall i :: 0 < i < |toks| && toks[i].Text? ==> !toks[i - 1].Text?)
  }

  predicate EndsInText(toks: seq<Token>) {
    |toks| > 0 && toks[|toks| - 1].Text?
  }

  /** What holds between any two characters: in the text states the last
      token is not a text (the pending run may be flushed after it), and in
      the tag states the pending run is empty. */
  predicate Good(m: Scanner) {
    && TextsOk(m.tokens)
    && ((m.state.InText? || m.state.BackSlash?) ==> !EndsInText(m.tokens))
    && (!(m.state.InText? || m.state.BackSlash?) ==> m.text == "")
  }

  /** The pending run appended as a text token, if there is one. */
  function Flush(text: string, toks: seq<Token>): (r: seq<Token>)
    ensures text == "" ==> r == toks
    ensures text != "" ==> r == toks + [Text(text)]
  {
    if text == "" then toks else toks + [Text(text)]
  }

  lemma FlushOk(text: string, toks: seq<Token>)
    ensures TextsOk(toks) && !EndsInText(toks) ==> TextsOk(Flush(text, toks))
  {
  }

  /** One turn of the loop on a character. */
  function Step(m: Scanner, ch: char, mode: ParsingMode): (r: Result<Scanner, Failure>)
    ensures r.Ok? && Good(m) ==> Good(r.value)
    ensures r.Ok? ==> |m.tokens| <= |r.value.tokens| && r.value.tokens[..|m.tokens|] == m.tokens
  {
    match m.state
    case Lt =>
      if ch == '/' then Ok(m.(state := MaybeClose))
      else if ch == '>' then Ok(m.(state := InText, tokens := m.tokens + [Empty]))
      else Ok(m.(state := Tag([ch])))
    case Tag(content) =>
      if ch == '>' then
        match ParseStyle(content, mode)
        case Ok(style) => Ok(m.(state := InText, tokens := m.tokens + [Fmt(style)]))
        case Err(e) => Err(Parsing(e))
      else if IsTagChar(ch) then Ok(m.(state := Tag(content + [ch])))
      else Err(Parsing(InvalidTagChar(ch)))
    case BackSlash =>
      Ok(m.(state := InText, text := m.text + (if ch == '<' then "<" else ['\\', ch])))
    case MaybeClose =>
      if ch == '>' then Ok(m.(state := InText, tokens := m.tokens + [End]))
      else Err(Unsupported(ch))
    case InText =>
      if ch == '\\' then Ok(m.(state := BackSlash))
      else if ch == '<' then
        FlushOk(m.text, m.tokens);
        Ok(Scanner(Lt, "", Flush(m.text, m.tokens)))
      else Ok(m.(text := m.text + [ch]))
  }

  /** The end of the input: the tag states are errors, a pending backslash
      is kept as a character, and the pending run is flushed. */
  function Finish(m: Scanner): (r: Result<seq<Token>, Failure>)
    ensures r.Ok? <==> m.state.InText? || m.state.BackSlash?
    ensures r.Ok? && Good(m) ==> TextsOk(r.value)
  {
    match m.state
    case Lt => Err(Parsing(Eof(">")))
    case Tag(content) => Err(Parsing(Eof("Tag name: " + content)))
    case MaybeClose => Err(Parsing(Eof("</")))
    case BackSlash => FlushOk(m.text + "\\", m.tokens); Ok(Flush(m.text + "\\", m.tokens))
    case InText => FlushOk(m.text, m.tokens); Ok(Flush(m.text, m.tokens))
  }

  /** The machine run over all of `s`; the first failure stops it. */
  function Scan(s: string, m: Scanner, mode: ParsingMode): (r: Result<Scanner, Failure>)
    ensures r.Ok? && Good(m) ==> Good(r.value)
    decreases |s|
  {
    if |s| == 0 then Ok(m)
    else
      var next :- Step(m, s[0], mode);
      Scan(s[1..], next, mode)
  }

  /** `tokenize`. */
  function Tokenize(s: string, mode: ParsingMode): (r: Result<seq<Token>, Failure>)
    ensures r.Ok? ==> TextsOk(r.value)
  {
    var m :- Scan(s, Start, mode);
    Finish(m)
  }

  /** Running over `a + b` is running over `a`, then over `b`. */
  lemma {:induction false} ScanAppend(a: string, b: string, m: Scanner, mode: ParsingMode)
    ensures var r := Scan(a, m, mode);
      Scan(a + b, m, mode) == if r.Ok? then Scan(b, r.value, mode) else Err(r.error)
    decreases |a|
  {
    if |a| == 0 {
      assert a + b == b;
    } else {
      assert (a + b)[0] == a[0];
      assert (a + b)[1..] == a[1..] + b;
      var next := Step(m, a[0], mode);
      if next.Ok? {
        ScanAppend(a[1..], b, next.value, mode);
      }
    }
  }

  /** The first character is one step. */
  lemma ScanCons(ch: char, rest: string, m: Scanner, mode: ParsingMode)
    ensures var r := Step(m, ch, mode);
      Scan([ch] + rest, m, mode) == if r.Ok? then Scan(rest, r.value, mode) else Err(r.error)
  {
    assert ([ch] + rest)[0] == ch;
    assert ([ch] + rest)[1..] == rest;
  }

  lemma ScanOne(ch: char, m: Scanner, mode: ParsingMode)
    ensures Scan([ch], m, mode) == Step(m, ch, mode)
  {
    ScanCons(ch, [], m, mode);
    assert [ch] + [] == [ch];
  }

  /** Characters other than `<` and `\` extend the pending run. */
  lemma {:induction false} ScanPlain(s: string, m: Scanner, mode: ParsingMode)
    requires m.state.InText?
    requires '<' !in s && '\\' !in s
    ensures Scan(s, m, mode) == Ok(m.(text := m.text + s))
    decreases |s|
  {
    if |s| == 0 {
      assert m.text + s == m.text;
    } else {
      assert s[1..] == s[1..] && '<' !in s[1..] && '\\' !in s[1..];
      ScanPlain(s[1..], m.(text := m.text + [s[0]]), mode);
      assert m.text + [s[0]] + s[1..] == m.text + s;
    }
  }

  /** Text without `<` and `\` is one text token, or none when empty. */
  lemma PlainText(s: string, mode: ParsingMode)
    requires '<' !in s && '\\' !in s
    ensures Tokenize(s, mode) == Ok(if s == "" then [] else [Text(s)])
  {
    ScanPlain(s, Start, mode);
    assert Start.(text := Start.text + s) == Scanner(InText, s, []);
    assert [] + [Text(s)] == [Text(s)];
  }

  /** A backslash keeps the character after it, except that `\<` is a
      literal `<`. */
  lemma Escape(ch: char, m: Scanner, mode: ParsingMode)
    requires m.state.InText?
    ensures Scan(['\\', ch], m, mode) == Ok(m.(text := m.text + if ch == '<' then "<" else ['\\', ch]))
  {
    ScanCons('\\', [ch], m, mode);
    assert ['\\'] + [ch] == ['\\', ch];
    ScanOne(ch, m.(state := BackSlash), mode);
  }

  /* ---------------------------------------------------------------- */
  /* Tags, from a scanner that is reading text                        */
  /* ---------------------------------------------------------------- */

  /** `<>` flushes the pending run and emits `Empty`. */
  lemma EmptyTag(m: Scanner, mode: ParsingMode)
    requires m.state.InText?
    ensures Scan("<>", m, mode) == Ok(Scanner(InText, "", Flush(m.text, m.tokens) + [Empty]))
  {
    ScanCons('<', ">", m, mode);
    ScanOne('>', Scanner(Lt, "", Flush(m.text, m.tokens)), mode);
  }

  /** `</>` flushes the pending run and emits `End`. */
  lemma EndTag(m: Scanner, mode: ParsingMode)
    requires m.state.InText?
    ensures Scan("</>", m, mode) == Ok(Scanner(InText, "", Flush(m.text, m.tokens) + [End]))
  {
    ScanCons('<', "/>", m, mode);
    ScanCons('/', ">", Scanner(Lt, "", Flush(m.text, m.tokens)), mode);
    ScanOne('>', Scanner(MaybeClose, "", Flush(m.text, m.tokens)), mode);
  }

  /** `</` followed by anything but `>` is a named closing tag. */
  lemma CloseThenChar(m: Scanner, ch: char, rest: string, mode: ParsingMode)
    requires m.state.InText? && ch != '>'
    ensures Scan("</" + [ch] + rest, m, mode) == Err(Unsupported(ch))
  {
    var lt := Scanner(Lt, "", Flush(m.text, m.tokens));
    ScanCons('<', "/" + [ch] + rest, m, mode);
    assert "</" + [ch] + rest == ['<'] + ("/" + [ch] + rest);
    ScanCons('/', [ch] + rest, lt, mode);
    assert "/" + [ch] + rest == ['/'] + ([ch] + rest);
    ScanCons(ch, rest, lt.(state := MaybeClose), mode);
  }

  /** Tag bodies: the first character is taken unchecked (it only must not
      make the tag a closing one), each later one must be a tag character. */
  predicate TagBody(body: string) {
    && |body| > 0 && body[0] != '/' && '>' !in body
    && forall i :: 0 < i < |body| ==> IsTagChar(body[i])
  }

  /** Reading tag characters keeps them in the tag state. */
  lemma {:induction false} ScanTagBody(body: string, m: Scanner, mode: ParsingMode)
    requires m.state.Tag?
    requires '>' !in body && forall i :: 0 <= i < |body| ==> IsTagChar(body[i])
    ensures Scan(body, m, mode) == Ok(m.(state := Tag(m.state.content + body)))
    decreases |body|
  {
    if |body| == 0 {
      assert m.state.content + body == m.state.content;
    } else {
      var next := m.(state := Tag(m.state.content + [body[0]]));
      ScanTagBody(body[1..], next, mode);
      assert m.state.content + [body[0]] + body[1..] == m.state.content + body;
    }
  }

  /** `<` and a tag body flush the pending run and hold the body. */
  lemma OpenTag(m: Scanner, body: string, mode: ParsingMode)
    requires m.state.InText? && TagBody(body)
    ensures Scan("<" + body, m, mode) == Ok(Scanner(Tag(body), "", Flush(m.text, m.tokens)))
  {
    var t := Scanner(Tag([body[0]]), "", Flush(m.text, m.tokens));
    ScanCons('<', body, m, mode);
    ScanCons(body[0], body[1..], Scanner(Lt, "", Flush(m.text, m.tokens)), mode);
    assert [body[0]] + body[1..] == body;
    ScanTagBody(body[1..], t, mode);
  }

  /** A closed tag emits the style its body denotes, or stops with that
      body's grammar error. */
  lemma StyledTag(m: Scanner, body: string, mode: ParsingMode)
    requires m.state.InText? && TagBody(body)
    ensures var r := ParseStyle(body, mode);
      Scan("<" + body + ">", m, mode)
        == if r.Ok? then Ok(Scanner(InText, "", Flush(m.text, m.tokens) + [Fmt(r.value)]))
           else Err(Parsing(r.error))
  {
    OpenTag(m, body, mode);
    ScanAppend("<" + body, ">", m, mode);
    ScanOne('>', Scanner(Tag(body), "", Flush(m.text, m.tokens)), mode);
  }

  /* ---------------------------------------------------------------- */
  /* Errors, after any prefix that leaves the machine reading text     */
  /* ---------------------------------------------------------------- */

  predicate InTextAfter(s: string, mode: ParsingMode) {
    Scan(s, Start, mode).Ok? && Scan(s, Start, mode).value.state.InText?
  }

  /** A `<` at the end of the input asks for its `>`. */
  lemma OpenAtEnd(s: string, mode: ParsingMode)
    requires InTextAfter(s, mode)
    ensures Tokenize(s + "<", mode) == Err(Parsing(Eof(">")))
  {
    ScanAppend(s, "<", Start, mode);
    ScanOne('<', Scan(s, Start, mode).value, mode);
  }

  /** `</` at the end of the input asks for its `>`. */
  lemma CloseAtEnd(s: string, mode: ParsingMode)
    requires InTextAfter(s, mode)
    ensures Tokenize(s + "</", mode) == Err(Parsing(Eof("</")))
  {
    var m := Scan(s, Start, mode).value;
    ScanAppend(s, "</", Start, mode);
    ScanCons('<', "/", m, mode);
    ScanOne('/', Scanner(Lt, "", Flush(m.text, m.tokens)), mode);
  }

  /** A backslash at the end of the input is kept: it joins the pending
      text run, which is flushed as the last token. */
  lemma TrailingBackslash(s: string, mode: ParsingMode)
    requires InTextAfter(s, mode)
    ensures var m := Scan(s, Start, mode).value;
      Tokenize(s + "\\", mode) == Ok(Flush(m.text + "\\", m.tokens))
  {
    ScanAppend(s, "\\", Start, mode);
    ScanOne('\\', Scan(s, Start, mode).value, mode);
  }

  /** For plain text, that is one text token ending in the backslash. */
  lemma PlainTrailingBackslash(s: string, mode: ParsingMode)
    requires '<' !in s && '\\' !in s
    ensures Tokenize(s + "\\", mode) == Ok([Text(s + "\\")])
  {
    ScanPlain(s, Start, mode);
    assert Start.(text := Start.text + s) == Scanner(InText, s, []);
    TrailingBackslash(s, mode);
    assert [] + [Text(s + "\\")] == [Text(s + "\\")];
  }

  /** An escaped backslash does not escape what follows it: after `\\`
      both backslashes are pending text and the `<` opens a tag, which the
      end of the input leaves unclosed. */
  lemma DoubleBackslash(s: string, mode: ParsingMode)
    requires InTextAfter(s, mode)
    ensures var m := Scan(s, Start, mode).value;
      Scan(s + "\\\\<", Start, mode) == Ok(Scanner(Lt, "", Flush(m.text + "\\\\", m.tokens)))
    ensures Tokenize(s + "\\\\<", mode) == Err(Parsing(Eof(">")))
  {
    var m := Scan(s, Start, mode).value;
    var m1 := m.(text := m.text + "\\\\");
    assert Scan("\\\\", m, mode) == Ok(m1) by {
      Escape('\\', m, mode);
      assert "\\\\" == ['\\', '\\'];
    }
    assert Scan("\\\\<", m, mode) == Ok(Scanner(Lt, "", Flush(m1.text, m1.tokens))) by {
      ScanAppend("\\\\", "<", m, mode);
      assert "\\\\" + "<" == "\\\\<";
      ScanOne('<', m1, mode);
    }
    ScanAppend(s, "\\\\<", Start, mode);
  }

  /** A named closing tag is not supported, whatever follows it. */
  lemma NamedClose(s: string, ch: char, rest: string, mode: ParsingMode)
    requires InTextAfter(s, mode)
    requires ch != '>'
    ensures Tokenize(s + "</" + [ch] + rest, mode) == Err(Unsupported(ch))
  {
    ScanAppend(s, "</" + [ch] + rest, Start, mode);
    assert s + "</" + [ch] + rest == s + ("</" + [ch] + rest);
    CloseThenChar(Scan(s, Start, mode).value, ch, rest, mode);
  }

  /** A tag left open at the end of the input names its body. */
  lemma TagAtEnd(s: string, body: string, mode: ParsingMode)
    requires InTextAfter(s, mode)
    requires TagBody(body)
    ensures Tokenize(s + "<" + body, mode) == Err(Parsing(Eof("Tag name: " + body)))
  {
    ScanAppend(s, "<" + body, Start, mode);
    assert s + "<" + body == s + ("<" + body);
    OpenTag(Scan(s, Start, mode).value, body, mode);
  }

  /** A grammar error in a tag body stops the tokenizer, whatever follows. */
  lemma BadTagSpec(s: string, body: string, rest: string, mode: ParsingMode)
    requires InTextAfter(s, mode)
    requires TagBody(body) && ParseStyle(body, mode).Err?
    ensures Tokenize(s + "<" + body + ">" + rest, mode) == Err(Parsing(ParseStyle(body, mode).error))
  {
    var m := Scan(s, Start, mode).value;
    var tag := "<" + body + ">";
    assert Scan(tag + rest, m, mode) == Err(Parsing(ParseStyle(body, mode).error)) by {
      ScanAppend(tag, rest, m, mode);
      StyledTag(m, body, mode);
    }
    assert Scan(s + (tag + rest), Start, mode) == Scan(tag + rest, m, mode) by {
      ScanAppend(s, tag + rest, Start, mode);
    }
    RegroupTag(s, "<", body, ">", rest);
  }

  /** A character outside the tag alphabet stops the tokenizer. */
  lemma BadTagChar(s: string, body: string, ch: char, rest: string, mode: ParsingMode)
    requires InTextAfter(s, mode)
    requires TagBody(body)
    requires !IsTagChar(ch) && ch != '>'
    ensures Tokenize(s + "<" + body + [ch] + rest, mode) == Err(Parsing(InvalidTagChar(ch)))
  {
    var m := Scan(s, Start, mode).value;
    var open := "<" + body;
    var tail := [ch] + rest;
    var inTag := Scanner(Tag(body), "", Flush(m.text, m.tokens));
    assert Scan(open + tail, m, mode) == Err(Parsing(InvalidTagChar(ch))) by {
      ScanAppend(open, tail, m, mode);
      OpenTag(m, body, mode);
      ScanCons(ch, rest, inTag, mode);
    }
    assert Scan(s + (open + tail), Start, mode) == Scan(open + tail, m, mode) by {
      ScanAppend(s, open + tail, Start, mode);
    }
    RegroupTag(s, "<", body, [ch], rest);
  }

  /** Five pieces read the same grouped as the prefix and the rest. */
  lemma RegroupTag(a: string, b: string, c: string, d: string, e: string)
    ensures a + b + c + d + e == a + (b + c + d + e)
    ensures a + b + c + d + e == a + (b + c + (d + e))
  {
  }

}

=== FILE: wrappers.dfy ===
/** Failure-compatible wrappers used throughout the model: `Option` for the
    source's `Option<T>` and `Result` for its `Result<T, E>` returns. */
module Wrappers {

  datatype Option<+T> = None | Some(value: T) {
    predicate IsFailure() { None? }

    function PropagateFailure<U>(): Option<U>
      requires None?
    {
      None
    }

    function Extract(): T
      requires Some?
    {
      value
    }
  }

  datatype Result<+T, +E> = Ok(value: T) | Err(error: E) {
    predicate IsFailure() { Err? }

    function PropagateFailure<U>(): Result<U, E>
      requires Err?
    {
      Err(error)
    }

    function Extract(): T
      requires Ok?
    {
      value
    }

    /** Converts the error part, keeping a success untouched (Rust's `map_err`). */
    function MapErr<F>(f: E -> F): (r: Result<T, F>)
      ensures Ok? <==> r.Ok?
      ensures Ok? ==> r.value == value
      ensures Err? ==> r.error == f(error)
    {
      match this
      case Ok(v) => Ok(v)
      case Err(e) => Err(f(e))
    }
  }
}
